=== FILE: README.md ===
# X post search and reply: the background action queue, in Dafny

The application lets a user do three things from a desktop window. They can queue a recent-search over a time window. They can queue replies to and likes of selected posts. And they can watch a single background worker carry the queued actions out against the X (Twitter) v2 API.

This project models the logic behind that window. Each part lives in its own Dafny module:

- **Wrappers**: the `Option` and `Result` types.
- **Text**: the parts of Python's `str` the code relies on. These are `strip()`, `lower()`, `capitalize()`, substring tests, `int()` on a decimal string and `str(n)`.
- **Config**: the constants, the per-tier rate-limit table and its lookup.
- **Actions**: queued actions, made of a kind tag, parameters and a retry counter.
- **CallLog**: the append-only call log.
- **Stats**: average durations and the statistics report.
- **Delay**: the retry-delay calculation.
- **Countdown**: the visual retry countdown, with cancellation.
- **Inputs**: search-window validation, reply-text validation, the search query and its parameters, the `max_results` clamp, and the masking of credentials in error details.
- **Worker**: the FIFO queue, the worker loop, the three handlers, the retry decision, cancel-all, window close and the two enqueue sites.

Everything is a pure function over immutable data. The values the program reads from the outside world arrive as parameters:

- the current time, in integer UTC epoch seconds;
- measured durations;
- log timestamps, as opaque strings;
- the outcome of each network call;
- whether an API client is available;
- the countdown tick during which the user presses Cancel Retry.

The worker thread becomes a sequence of events applied one at a time (`Worker.Apply`, `Worker.Replay`).

A few behaviours of the code worth stating:

- **Retry delay.** As written, every failed call waits the interval from the user's options. A 429 response is falsy, so the reset it announces is never read (first row of "## Findings"). Once that guard is corrected, the wait is the time until the announced reset, or else the interval from the options. `Config.BufferSeconds` (15 s) is declared in config.py and never read. The number of attempts made so far does not enter the wait.
- **Number of attempts.** As written, the first `log_call` raises `NameError` (third row of "## Findings"). The search handler catches it and calls the retry handler, whose own `log_call` raises again; that error ends the worker thread during the first action. The rest of this bullet holds once the logger is corrected. An action is attempted up to `MaxRetries + 1` = 7 times, because the counter runs from 0 to 6. Each failed attempt logs two entries: one from the call wrapper and one from the retry handler. The retry handler's entry always reads "Failed". The wrapper's entry reads "Failed" only for a falsy result. A search that gets a non-error status with a body that is not JSON logs `<Response [200]>` there.
- **Cancel-all.** It raises a stop flag that nothing ever lowers. The worker loop exits for good, and actions queued afterwards are never carried out. The Execute button is re-enabled, but nothing restarts the loop (`Worker.NoCallAfterExit`).
- **`max_results`.** It is capped at 100 and has no lower bound.

## Model

| member | source | states |
|---|---|---|
| Text.Strip | main.py:303 | the stripped text has no whitespace at either end, and it is empty exactly when the input is all whitespace |
| Text.StripIsTrimmedSlice | main.py:303 | `strip()` removes exactly the leading and trailing whitespace: the result is a slice of the input with only whitespace before and after it |
| Text.StripIdempotent | main.py:336 | stripping already-stripped text changes nothing |
| Text.Lower | main.py:910 | `lower()` keeps the length, maps ASCII capitals to small letters and leaves every other character alone |
| Text.Contains | main.py:910 | `sub in s` holds exactly when `sub` occurs in `s` at some position |
| Text.Capitalize | stats.py:26 | the first character is upper-cased, the rest lower-cased, and the length is kept |
| Text.IntStrip | main.py:608 | the text `int()` reads has none of the six characters it skips at either end |
| Text.IntStripUnpadded | main.py:608 | text with none of those characters at either end is read whole |
| Text.IntStripKeepsLeading | main.py:608 | a first character `int()` does not skip is the first one it reads |
| Text.IntStripOfSpace | main.py:608 | of text made only of whitespace, `int()` is left with only whitespace |
| Text.ParseSigned | main.py:608 | a number is read only from text starting with a sign or a digit |
| Text.AllDigitsCount | main.py:608 | text made only of digits counts each character toward the digit limit |
| Text.ParsePyInt | main.py:605-608 | `int()` accepts only text with a non-blank core, and all-whitespace text is rejected |
| Text.StripDropsLeadingSpace | main.py:303 | `strip()` drops a leading whitespace character |
| Text.ParseRejectsLeadingSeparator | main.py:608 | a leading separator \x1c..\x1f is dropped by `strip()` but makes `int()` reject the text |
| Text.SeparatorBeforeNumber | main.py:608 | `int("\x1c12")` raises |
| Text.FormatNat | main.py:608 | the decimal rendering is non-empty, all digits, with no leading zero for a positive number |
| Text.DigitsValueOfFormatNat | main.py:608 | reading back the digits of a rendered natural number gives the number |
| Text.ParseDigitGroup | main.py:606-608 | `int()` of an unsigned digit group of at most 4300 digits is the number its digits spell |
| Text.ParseNegatedDigitGroup | main.py:606-608 | `int()` of a minus sign and a digit group of at most 4300 digits is that number negated |
| Text.LongDigitGroupRejected | main.py:608 | a digit group of more than 4300 digits is rejected; the `ValueError` is caught at main.py:613, so such a reset header falls back to the configured interval |
| Text.ParseFormatRoundTrip | main.py:606-608 | `int(str(n)) == n` for every integer of at most 4300 digits, so any such reset header is read exactly |
| Config.Limits | config.py:19-24 | the table has exactly the tiers Free, Basic and Pro, each with exactly search, reply and like; every limit is positive and every window is 15m or 24h |
| Config.Lookup | stats.py:25 | `LIMITS[tier][kind]` succeeds exactly for a known tier and kind, and an unknown tier is reported as such |
| Config.WindowSeconds | config.py:9-10 | "15m" is 900 s, "24h" is 86400 s, and no other text names a window |
| Actions.ParseKind | main.py:369-374 | the dispatch recognises exactly the tags "search", "reply" and "like", and the recognised kind carries that tag |
| Actions.ApiRefInjective | main.py:412 | the three handlers log under three different endpoint references |
| Actions.Fresh | main.py:316-322 | a queued action is tagged by its parameters and starts with zero retries |
| Actions.Retried | main.py:659-660 | a re-queued action keeps its tag and parameters, its counter rises by exactly one, and a well-tagged action stays pending |
| CallLog.Summary | logger.py:18 | a falsy response is recorded as "Failed", and a truthy one by its text |
| CallLog.LoadLogs | logger.py:26-31 | without a log file the log starts empty; otherwise it holds the stored entries |
| CallLog.LogCall | logger.py:12-20 | one entry is appended and every earlier entry is kept; the new entry has the given reference, timestamp and duration, and it reads as failed exactly when the response is falsy or is a truthy value whose text is "Failed" |
| CallLog.GetLogsInInsertionOrder | logger.py:12-34 | after any run of calls, `get_logs` returns the old entries followed by one entry per call, in call order |
| CallLog.LogCallAsWritten | logger.py:1-13 | as written, every call raises `NameError('datetime')` |
| CallLog.AsWrittenLoggerNeverRecords | logger.py:13 | the logger as written records nothing on any input, where the intended logger appends one entry |
| Stats.NewStats | main.py:44 | the statistics start at tier Free on the shared log |
| Stats.SetLicenseLevel | stats.py:9-10 | the tier is replaced and the log is untouched |
| Stats.SetLicenseLevelLastWins | stats.py:9-10 | setting the tier twice keeps only the second setting |
| Stats.ApiRefFor | stats.py:13-17 | a call type has a reference exactly when it is search, reply or like |
| Stats.Mean | stats.py:20 | no values average to 0.0; otherwise mean times count equals the sum |
| Stats.AvgDuration | stats.py:12-20 | an unknown call type fails exactly when the log has an entry and gives 0.0 on an empty log; a known one gives 0.0 when no entry counts, and otherwise the mean of the non-failed durations logged under its reference |
| Stats.AppendUncountedKeepsDurations | stats.py:18-19 | a failed entry, or one under another reference, does not change the durations averaged |
| Stats.AppendCountedAddsDuration | stats.py:18-19 | a non-failed entry under the reference adds its duration at the end |
| Stats.DurationsComeFromCountedEntries | stats.py:18-19 | every averaged duration comes from a non-failed entry logged under the reference |
| Stats.OnlyFailuresAverageZero | stats.py:18-20 | a log of failures only has nothing to average |
| Stats.MeanWithinBounds | stats.py:20 | the average lies between the smallest and the largest duration |
| Stats.FormatStats | stats.py:22-29 | the report exists exactly for a known tier; it has the license line, then Search, Reply and Like in that order, each agreeing with the table lookup and the average duration |
| Stats.ReportTitles | stats.py:24-26 | the block titles are Search, Reply and Like |
| Delay.AnnouncedReset | main.py:603-608 | a reset is announced exactly by a 429 response whose header is present, non-empty and accepted by `int()` |
| Delay.FallbackDelay | main.py:616-624 | an unknown call type waits 300 s; non-negative options never give a negative wait |
| Delay.FallbackUnits | main.py:617-622 | search and like intervals are in minutes, reply intervals in hours |
| Delay.DefaultFallbackIsFreeWindow | main.py:219-226 | with the default options every kind waits exactly one window of its Free-tier limit |
| Delay.RetryDelay | main.py:602-628 | with an announced reset the wait is never negative and ends exactly at the reset, or is zero if the reset has passed; otherwise it is the configured fallback |
| Delay.RetryDelayIgnoresRetries | main.py:602 | the attempt count does not affect the wait |
| Delay.RetryDelayNonNegative | main.py:610 | no wait is negative while the options are not |
| Delay.RetryDelayAsWritten | main.py:603 | as written, every 429 response falls back to the configured interval |
| Delay.AsWrittenMissesAnnouncedReset | main.py:603-612 | a 429 announcing a reset 60 s ahead (a header `int()` can read) makes the code as written wait 900 s, where 60 s was intended |
| Countdown.Start | main.py:686-692 | a countdown starts at the delay, with no progress and the cancel flag cleared |
| Countdown.Tick | main.py:695-704 | each second adds exactly one unit of progress |
| Countdown.RequestCancel | main.py:723-727 | a cancel request stops the countdown where it is |
| Countdown.Run | main.py:695-704 | the run is cancelled exactly when the request comes before the time runs out; otherwise it ends at zero |
| Countdown.RunWithDisplay | main.py:695-721 | the loop ends as `Run` says and displays the progress values 0, 1, 2, … once each |
| Inputs.EpochStartsAtZero | main.py:290-291 | entries are read as UTC: 1970-01-01 00:00 is instant 0 |
| Inputs.Year2006Starts | main.py:295-296 | the earliest allowed start year begins at 1136073600 |
| Inputs.ShiftedYearLength | main.py:290-291 | a year counted from March 1 has 366 days exactly when the civil year holding its February is a Gregorian leap year, and 365 otherwise |
| Inputs.DaysFromCivilOrder | main.py:290-293 | a later valid calendar date has a larger day number |
| Inputs.EpochSecondsOrder | main.py:293-298 | two valid entries compare as `datetime` objects exactly as their epoch seconds compare, so checks on seconds are the code's checks on datetimes |
| Inputs.ValidateInputsAsWritten | main.py:288-309 | validation succeeds exactly when both times parse, start is before end, the start year is at least 2006, start is not in the future, and the stripped keywords are non-empty; the end is pulled back to no later than `now - 10 s` |
| Inputs.ClampCanInvertWindow | main.py:297-302 | a start in the current minute passes every check, and the clamp then puts the end before the start |
| Inputs.RecentStartIsInverted | main.py:297-302 | every otherwise valid search whose start lies within ten seconds before now is accepted with its end at or before its start |
| Inputs.ValidateInputs | main.py:292-302 | every accepted window has start strictly before end; otherwise the corrected validation behaves exactly as the code does |
| Inputs.ValidateReplyText | main.py:335-342 | reply text is accepted exactly when its stripped form has 1 to 280 characters, with one error for empty and one for too long |
| Inputs.BuildQuery | main.py:383-387 | the query is the keywords, then " -is:retweet", then the chosen filters |
| Inputs.BuildQueryRecoversFilters | main.py:383-387 | the chosen filters can be read back off the query |
| Inputs.MaxResults | main.py:398 | `max_results` is the option, capped at 100 |
| Inputs.SearchRequestParams | main.py:394-402 | the request has the seven parameters, with the built query, the search's start and end times and the capped `max_results` |
| Inputs.SearchRequestTimes | main.py:396-397 | the request's `start_time` and `end_time` read back as the search's own window when they are within the digit limit |
| Inputs.MaskParams | main.py:906-913 | masking keeps the keys and their order, masks exactly the keys whose lower case contains "token" or "key", and keeps every other value |
| Inputs.MaskParamsIdempotent | main.py:906-913 | masking twice masks nothing more |
| Inputs.SensitiveKeysIgnoreCase | main.py:910 | API_KEY, Bearer_Token and access_token are all masked |
| Worker.Launch | main.py:42-47 | the application starts running, with an empty queue, no stop request, exactly the stored log (empty without one) and the given options |
| Worker.Logged | main.py:664-674 | each call is logged once under the handler's reference, and the rest of the state is kept |
| Worker.HandleRetry | main.py:630-662 | one failure is logged; the action is re-queued at the tail with one more retry exactly when it had retries left and the countdown was not cancelled; otherwise the queue is unchanged |
| Worker.SearchFailureResponse | main.py:421-442 | only an HTTP error status hands its response to the retry decision |
| Worker.LoggedThenRetried | main.py:630-674 | a failed call logs two entries under the handler's reference, the first failed exactly for a falsy or "Failed" result and the second always failed, and re-queues exactly as the retry decision says |
| Worker.PerformSearch | main.py:381-442 | a search logs one entry on success; on failure it logs two, the last failed, and re-queues exactly as the retry decision says |
| Worker.PerformWrite | main.py:444-523 | without a client the action is dropped silently; a raised call logs two failures and re-queues exactly as the retry decision says |
| Worker.Dispatch | main.py:367-374 | an unknown tag is dropped, and a known tag runs its own handler |
| Worker.WorkerStep | main.py:363-379 | the loop exits once closed or cancelled; it idles on an empty queue; otherwise it takes the head of the queue and runs one handler on the rest |
| Worker.WorkerStepKeepsQueueOk | main.py:363-379 | every queued action stays well tagged, with its counter in 0..6 |
| Worker.CancelActions | main.py:355-361 | cancel-all raises the stop flag and empties the queue; the log, `running`, the retry flag and the options are kept |
| Worker.OnClosing | main.py:598-600 | closing the window clears `running` and keeps the queue, the log, the stop flag, the retry flag and the options |
| Worker.QueueSearch | main.py:311-324 | exactly the validation errors reject; success appends one fresh search with stripped keywords, exactly the validated start and end, a non-empty window and the current filters |
| Worker.ReplyActions | main.py:343-345 | one action per selected post, in selection order, each tagged "reply" with that post and the text and zero retries |
| Worker.LikeActions | main.py:347-350 | one action per selected post, in selection order, each tagged "like" with that post and zero retries |
| Worker.PlannedActions | main.py:343-350 | Execute adds one action tagged "reply" per selected post when replying, then one tagged "like" per post when liking, each in selection order with zero retries |
| Worker.QueueActions | main.py:326-353 | no posts, no action or bad reply text each reject with their own error and queue nothing; otherwise the planned actions are appended after the existing queue |
| Worker.Apply | main.py:355-379 | no event breaks the queue invariant, lowers the stop flag or re-raises `running` |
| Worker.Replay | main.py:363-379 | the queue invariant holds after any sequence of events |
| Worker.NoCallAfterExit | main.py:355-366 | once cancel-all or window close has stopped the loop, no later event logs or calls anything |
| Worker.FailingStep | main.py:630-662 | a failing attempt logs two failures and re-queues the action only if it has retries left |
| Worker.FailingActionRunsOutOfRetries | main.py:630-662 | an action that always fails is attempted once per remaining retry plus once, then dropped, with two failed entries per attempt |
| Worker.FreshFailingActionIsAttemptedSevenTimes | config.py:6 | a new action that always fails is attempted seven times, and the attempts leave fourteen failed entries |
| Worker.StatsReferencesMatchHandlers | stats.py:13-17 | the statistics look up each kind under the reference its handler logs |
| Worker.FailingAttemptKeepsAverages | stats.py:18-19 | a failing attempt changes no average duration, except that an unknown call type on an empty log turns from 0.0 into a `KeyError` |

## Left out

- `int()` and `str()` limit integer/string conversion to 4300 digits. The model uses this default of CPython 3.11 and later (also in the security releases of 3.7 to 3.10). It does not model a limit changed through `sys.set_int_max_str_digits` or the environment, or an interpreter without the limit. `Text.FormatInt` renders every integer; the lemmas that read its output back require the number to be within the limit.
- Unicode: `strip()`, `lower()`, `capitalize()` and `int()` are given their meaning on ASCII only. Other whitespace, other cased letters and non-ASCII digits are treated as ordinary characters. On ASCII, `strip()` removes ten characters and `int()` skips only six of them: the separators \x1c..\x1f are not skipped.
- Times: `strptime` parsing of the entry text is left out. A time arrives already split into fields, and a field set that is not a real date stands for the `ValueError`. The code compares `datetime` objects where the model compares epoch seconds; `Inputs.EpochSecondsOrder` shows the two orders agree.
- The start and end times are sent as ISO-8601 strings. The model sends epoch seconds rendered in decimal.
- `now` is a whole second. The code compares against a clock with sub-second precision.
- Threads: the worker thread, the countdown thread and the Tk event loop become events applied one at a time, and interleavings inside one event are not modelled. In particular a Cancel Retry that lands after the countdown has finished but before the join is not modelled.
- The network and the API client are left out. Each call's outcome, and whether a client can be created (`ensure_client`, main.py:676-682), is an input.
- The response body and its parsed posts and users (main.py:415-418) are left out.
- JSON persistence is left out: `save_logs` and the log and options files. Loading is modelled as an optional stored list.
- UI text is left out: every status message, the countdown label formatting (main.py:697-699) and the two-decimal rendering of averages. The statistics report is returned as structured sections rather than text.
- Durations are reals; float rounding is not modelled.
- `debug_mode` and `debug_log` only print, and are left out.
- The rest of `_format_api_error_details` (main.py:899-972) is message prose; only its parameter masking is modelled.
- Worker.WorkerStep: requires that a queued action with a known tag carries that kind's parameters. The code would raise a `KeyError` otherwise. Both enqueue sites guarantee this, and `Worker.WorkerStepKeepsQueueOk` shows it is kept.
- Delay.RetryDelay: does not model the failure of `datetime.fromtimestamp` in the status message (main.py:611) for a reset outside the platform's range. A `ValueError` there is caught and the code falls back to the configured interval (main.py:613-614); an `OverflowError` (for example for 10**20) is not caught and escapes the handler. The range depends on the platform's `time_t` and the local time zone, so the model waits `max(0, reset - now)` for every integer reset.
- Config.WindowSeconds: `SECONDS_PER_15M` and `SECONDS_PER_24H` are declared in config.py and never read by main.py. The contract relates them to the window names of the tier table.
- Worker.HandleRetry: the logged failure's duration and timestamp are inputs, because they come from the clock.
- Text.ParsePyInt: its contract states a necessary condition for `int()` to accept: a non-blank core. It also says that blank text is rejected. A leading separator and a digit group over the limit are shown rejected by their own lemmas. What it returns is pinned only through `Text.ParseFormatRoundTrip`.
- gui_components.py, mock.py and utils.py are not part of this model.

## Findings

| source | as written | input that shows it | evidently intended | confidence | as-written member | corrected member |
|---|---|---|---|---|---|---|
| main.py:603 | `if response and …`: a response object of the HTTP library is falsy for every 4xx/5xx status, so a 429 never reaches the reset-header branch | a search answered by 429 with `X-Rate-Limit-Reset` = now + 60: the code waits 900 s | wait until the announced reset (60 s) | high, not executed | Delay.RetryDelayAsWritten, Delay.AsWrittenMissesAnnouncedReset | Delay.RetryDelay |
| main.py:292-302 | the window is checked before the end is clamped to `now - 10 s`, and never after | at 2024-01-01 12:00:05 UTC, start 12:00, end 12:05: accepted with the end at 11:59:55, before the start | reject a window that the clamp leaves empty | high, not executed | Inputs.ValidateInputsAsWritten, Inputs.ClampCanInvertWindow, Inputs.RecentStartIsInverted | Inputs.ValidateInputs |
| logger.py:1-13 | `log_call` uses `datetime`, which the module never imports | any call of `log_call` raises `NameError` before appending | record the call with the current timestamp | high, not executed | CallLog.LogCallAsWritten, CallLog.AsWrittenLoggerNeverRecords | CallLog.LogCall |

The corrected members are the ones the worker uses: `Worker.HandleRetry` waits `Delay.RetryDelay`, `Worker.QueueSearch` validates with `Inputs.ValidateInputs`, and every handler logs through `CallLog.LogCall`.

=== FILE: actions.dfy ===
/** The units of work the background worker consumes: a kind tag as the
    queue stores it (a string), the parameters the handler reads, and the
    retry counter carried along with them. */
module Actions {
  import opened Wrappers
  import Config

  datatype Kind = Search | Reply | Like

  /** The string a queued tuple carries as its action type. */
  function KindTag(k: Kind): string {
    match k
    case Search => "search"
    case Reply => "reply"
    case Like => "like"
  }

  /** The worker's dispatch on the tag: one of the three kinds, or none. */
  function ParseKind(tag: string): (r: Option<Kind>)
    ensures r.Some? ==> KindTag(r.value) == tag
    ensures r.None? ==> forall k :: KindTag(k) != tag
  {
    if tag == "search" then Some(Search)
    else if tag == "reply" then Some(Reply)
    else if tag == "like" then Some(Like)
    else None
  }

  /** The endpoint reference each handler records in the call log. */
  function ApiRef(k: Kind): string {
    match k
    case Search => "GET /2/tweets/search/recent"
    case Reply => "POST /2/tweets"
    case Like => "POST /2/users/:id/likes"
  }

  /** Distinct kinds log under distinct references, so the log tells them apart. */
  lemma ApiRefInjective(k1: Kind, k2: Kind)
    ensures ApiRef(k1) == ApiRef(k2) <==> k1 == k2
  {
  }

  /** A validated search: keywords, the window as UTC epoch seconds, and the
      two filters copied from the options when the search was queued. */
  datatype SearchParams = SearchParams(
    keywords: string,
    startTime: int,
    endTime: int,
    verifiedOnly: bool,
    noReplies: bool)

  datatype Payload =
    | SearchPayload(search: SearchParams)
    | ReplyPayload(postId: string, text: string)
    | LikePayload(postId: string)

  function PayloadKind(p: Payload): Kind {
    match p
    case SearchPayload(_) => Search
    case ReplyPayload(_, _) => Reply
    case LikePayload(_) => Like
  }

  /** One queued tuple `(action_type, params)`; `retries` is `params['retries']`. */
  datatype Action = Action(tag: string, payload: Payload, retries: nat)

  /** A tag the worker knows is paired with the parameters its handler reads. */
  predicate WellTagged(a: Action) {
    ParseKind(a.tag).Some? ==> ParseKind(a.tag).value == PayloadKind(a.payload)
  }

  /** What every action in the queue satisfies: well tagged, and its counter
      within 0..MaxRetries. */
  predicate Pending(a: Action) {
    WellTagged(a) && a.retries <= Config.MaxRetries
  }

  predicate QueueOk(q: seq<Action>) {
    forall i :: 0 <= i < |q| ==> Pending(q[i])
  }

  /** An action as the enqueue sites build it: tagged by its payload, no retries yet. */
  function Fresh(p: Payload): (a: Action)
    ensures Pending(a) && a.retries == 0 && a.payload == p
    ensures ParseKind(a.tag) == Some(PayloadKind(p))
  {
    Action(KindTag(PayloadKind(p)), p, 0)
  }

  /** The same action one attempt later; only the counter changes. */
  function Retried(a: Action): (b: Action)
    requires a.retries < Config.MaxRetries
    ensures b.tag == a.tag && b.payload == a.payload && b.retries == a.retries + 1
    ensures WellTagged(a) ==> Pending(b)
  {
    a.(retries := a.retries + 1)
  }

  /** Queues built from pending actions are pending queues. */
  lemma QueueOkAppend(q: seq<Action>, more: seq<Action>)
    requires QueueOk(q) && QueueOk(more)
    ensures QueueOk(q + more)
  {
  }
}

=== FILE: calllog.dfy ===
/** The append-only record of API call attempts kept by `APICallLogger`. */
module CallLog {
  import opened Wrappers

  /** What an entry's `response` field holds for a falsy response. */
  const FailedMarker := "Failed"

  /** One attempt: endpoint reference, ISO timestamp (an opaque string here),
      measured duration in seconds, and the response summary. */
  datatype LogEntry = LogEntry(apiRef: string, timestamp: string, duration: real, response: string)

  /** The response object handed to `log_call`, reduced to what the logger
      looks at: whether Python finds it truthy, and if so its `str()`. */
  datatype CallValue = Falsy | Truthy(text: string)

  datatype CallLog = CallLog(entries: seq<LogEntry>)

  /** An entry the statistics treat as a failed attempt. */
  predicate IsFailed(e: LogEntry) {
    e.response == FailedMarker
  }

  /** The `response` field of a new entry. A falsy response is always recorded
      as a failure; a truthy one is recorded by its text, so it reads as a
      failure only if its text happens to be the marker itself. */
  function Summary(v: CallValue): (s: string)
    ensures v.Falsy? ==> s == FailedMarker
    ensures v.Truthy? ==> s == v.text
  {
    match v
    case Falsy => FailedMarker
    case Truthy(text) => text
  }

  /** The log the application starts with: the stored entries if a log file
      exists (`None` when it does not), otherwise the empty log. */
  function LoadLogs(stored: Option<seq<LogEntry>>): (log: CallLog)
    ensures stored.None? ==> log.entries == []
    ensures stored.Some? ==> log.entries == stored.value
  {
    match stored
    case None => CallLog([])
    case Some(entries) => CallLog(entries)
  }

  /** `get_logs`: the entries, oldest first. */
  function GetLogs(log: CallLog): seq<LogEntry> {
    log.entries
  }

  /** `log_call` with the timestamp supplied by the caller: exactly one entry
      is appended, every earlier entry stays as it was, and the new entry
      carries the given reference, timestamp and duration unchanged. */
  function LogCall(log: CallLog, apiRef: string, duration: real, response: CallValue, timestamp: string): (r: CallLog)
    ensures |r.entries| == |log.entries| + 1
    ensures r.entries[..|log.entries|] == log.entries
    ensures Last(r).apiRef == apiRef && Last(r).duration == duration && Last(r).timestamp == timestamp
    ensures IsFailed(Last(r)) <==> response.Falsy? || response.text == FailedMarker
  {
    CallLog(log.entries + [LogEntry(apiRef, timestamp, duration, Summary(response))])
  }

  function Last(log: CallLog): LogEntry
    requires |log.entries| > 0
  {
    log.entries[|log.entries| - 1]
  }

  /** One recorded call, as handed to `log_call`. */
  datatype Call = Call(apiRef: string, duration: real, response: CallValue, timestamp: string)

  function EntryOf(c: Call): LogEntry {
    LogEntry(c.apiRef, c.timestamp, c.duration, Summary(c.response))
  }

  /** Records the calls one after another. */
  function LogAll(log: CallLog, calls: seq<Call>): CallLog
    decreases |calls|
  {
    if |calls| == 0 then log
    else
      var c := calls[0];
      LogAll(LogCall(log, c.apiRef, c.duration, c.response, c.timestamp), calls[1..])
  }

  /** `get_logs` returns the entries in the order they were recorded: after
      any run of calls, the old entries followed by one entry per call. */
  lemma {:induction false} GetLogsInInsertionOrder(log: CallLog, calls: seq<Call>)
    ensures |GetLogs(LogAll(log, calls))| == |log.entries| + |calls|
    ensures GetLogs(LogAll(log, calls))[..|log.entries|] == log.entries
    ensures forall i :: 0 <= i < |calls| ==> GetLogs(LogAll(log, calls))[|log.entries| + i] == EntryOf(calls[i])
    decreases |calls|
  {
    if |calls| > 0 {
      var c := calls[0];
      var log1 := LogCall(log, c.apiRef, c.duration, c.response, c.timestamp);
      GetLogsInInsertionOrder(log1, calls[1..]);
      var final := GetLogs(LogAll(log, calls));
      assert final == GetLogs(LogAll(log1, calls[1..]));
      assert log1.entries == log.entries + [EntryOf(c)];
      assert final[..|log1.entries|] == log1.entries;
      assert final[..|log.entries|] == log1.entries[..|log.entries|];
      forall i | 0 <= i < |calls|
        ensures final[|log.entries| + i] == EntryOf(calls[i])
      {
        if i == 0 {
          assert final[|log.entries|] == log1.entries[|log.entries|];
        } else {
          assert calls[1..][i - 1] == calls[i];
        }
      }
    }
  }

  /** Errors the application code can raise while logging. */
  datatype PyError = NameError(name: string)

  /** `log_call` as the file is written: its module never imports `datetime`,
      so the first statement raises `NameError` before anything is appended. */
  function LogCallAsWritten(log: CallLog, apiRef: string, duration: real, response: CallValue): (r: Result<CallLog, PyError>)
    ensures r.Err? && r.error == NameError("datetime")
  {
    Err(NameError("datetime"))
  }

  /** The discrepancy: on every input the logger as written records nothing
      and raises, where the intended logger appends one entry. */
  lemma AsWrittenLoggerNeverRecords(log: CallLog, apiRef: string, duration: real, response: CallValue, timestamp: string)
    ensures LogCallAsWritten(log, apiRef, duration, response).Err?
    ensures |LogCall(log, apiRef, duration, response, timestamp).entries| == |log.entries| + 1
  {
  }
}

=== FILE: config.dfy ===
/** The application's constants and the per-tier rate-limit table. */
module Config {
  import opened Wrappers

  const MaxPostLength: nat := 280
  const MaxRetries: nat := 6
  /** Declared by the configuration but read nowhere: no delay adds it. */
  const BufferSeconds: nat := 15
  const MinEndTimeOffset: nat := 10
  /** The two window lengths, declared by the configuration; the application
      never reads them, and `WindowSeconds` ties them to the window names. */
  const SecondsPer15m: nat := 15 * 60
  const SecondsPer24h: nat := 24 * 60 * 60

  /** One cell of the table: a call count and the window it is counted over. */
  datatype RateLimit = RateLimit(limit: int, window: string)

  const Window15m := "15m"
  const Window24h := "24h"

  predicate IsWindow(w: string) {
    w == Window15m || w == Window24h
  }

  const TierNames: set<string> := {"Free", "Basic", "Pro"}
  const KindNames: set<string> := {"search", "reply", "like"}

  /** A usable limit: a positive number of calls per named window. */
  predicate ValidLimit(l: RateLimit) {
    l.limit > 0 && IsWindow(l.window)
  }

  /** A complete row: every call kind, each with a usable limit. */
  predicate RowOk(m: map<string, RateLimit>) {
    m.Keys == KindNames && forall kind :: kind in m ==> ValidLimit(m[kind])
  }

  /** One tier's row of the table. */
  function Row(search: RateLimit, reply: RateLimit, like: RateLimit): (m: map<string, RateLimit>)
    ensures m.Keys == KindNames
    ensures m["search"] == search && m["reply"] == reply && m["like"] == like
    ensures ValidLimit(search) && ValidLimit(reply) && ValidLimit(like) ==> RowOk(m)
  {
    map["search" := search, "reply" := reply, "like" := like]
  }

  /** Tier name -> call kind -> limit. Exactly the tiers Free, Basic and Pro,
      each with all three kinds, every limit positive, every window 15m or 24h. */
  function Limits(): (t: map<string, map<string, RateLimit>>)
    ensures t.Keys == TierNames
    ensures forall tier :: tier in t ==> t[tier].Keys == KindNames
    ensures forall tier, kind :: tier in t && kind in t[tier] ==>
              t[tier][kind].limit > 0 && IsWindow(t[tier][kind].window)
  {
    var free := Row(RateLimit(1, Window15m), RateLimit(17, Window24h), RateLimit(1, Window15m));
    var basic := Row(RateLimit(60, Window15m), RateLimit(100, Window24h), RateLimit(200, Window24h));
    var pro := Row(RateLimit(300, Window15m), RateLimit(100, Window15m), RateLimit(1000, Window24h));
    var t := map["Free" := free, "Basic" := basic, "Pro" := pro];
    assert t.Keys == TierNames;
    assert forall tier :: tier in t ==> RowOk(t[tier]) by {
      assert RowOk(free) && RowOk(basic) && RowOk(pro);
    }
    t
  }

  datatype LookupError = UnknownTier(tier: string) | UnknownKind(kind: string)

  /** `RateLimits.LIMITS[tier][kind]`, with the two `KeyError`s as errors. */
  function Lookup(tier: string, kind: string): (r: Result<RateLimit, LookupError>)
    ensures r.Ok? <==> tier in TierNames && kind in KindNames
    ensures tier !in TierNames ==> r == Err(UnknownTier(tier))
    ensures r.Ok? ==> r.value.limit > 0 && IsWindow(r.value.window)
  {
    var t := Limits();
    if tier !in t then Err(UnknownTier(tier))
    else if kind !in t[tier] then Err(UnknownKind(kind))
    else Ok(t[tier][kind])
  }

  /** The length in seconds of a window the table names. No caller in the
      application converts a window; this states what the constants mean. */
  function WindowSeconds(w: string): (r: Option<nat>)
    ensures r.Some? <==> IsWindow(w)
    ensures r.Some? ==> r.value == SecondsPer15m || r.value == SecondsPer24h
    ensures r == Some(900) <==> w == Window15m
    ensures r == Some(86400) <==> w == Window24h
  {
    if w == Window15m then Some(SecondsPer15m)
    else if w == Window24h then Some(SecondsPer24h)
    else None
  }
}

=== FILE: countdown.dfy ===
/** The retry countdown: starts at the computed delay, drops by one per
    one-second tick, and stops at zero or once the user's cancel request is
    seen. The bar shows `total - remaining`. */
module Countdown {
  import opened Wrappers

  datatype Countdown = Countdown(total: int, remaining: int, cancelled: bool)

  /** A countdown as `_start_retry_countdown` begins it: the cancel flag cleared. */
  function Start(delay: int): (c: Countdown)
    ensures c.total == delay && c.remaining == delay && !c.cancelled
    ensures Progress(c) == 0
  {
    Countdown(delay, delay, false)
  }

  /** The loop condition: time left and no cancel request seen. */
  predicate Ticking(c: Countdown) {
    c.remaining > 0 && !c.cancelled
  }

  /** What the progress bar shows. */
  function Progress(c: Countdown): int {
    c.total - c.remaining
  }

  /** One second passes: exactly one unit of progress, never below zero. */
  function Tick(c: Countdown): (r: Countdown)
    requires Ticking(c)
    ensures r.total == c.total && r.cancelled == c.cancelled
    ensures Progress(r) == Progress(c) + 1
    ensures r.remaining >= 0
  {
    c.(remaining := c.remaining - 1)
  }

  /** The user presses Cancel Retry: the countdown stops where it is. */
  function RequestCancel(c: Countdown): (r: Countdown)
    ensures r.cancelled && !Ticking(r)
    ensures r.total == c.total && r.remaining == c.remaining
  {
    c.(cancelled := true)
  }

  /** Runs the countdown to its end. `cancelAt` is the tick (counting from
      zero) during whose sleep the user asks to cancel, if ever. The run is
      cancelled exactly when that request comes before the time runs out;
      otherwise it ends at zero (or where it started, if that was not positive). */
  function Run(c: Countdown, cancelAt: Option<nat>): (r: Countdown)
    requires !c.cancelled
    ensures r.total == c.total
    ensures r.cancelled <==> c.remaining > 0 && cancelAt.Some? && cancelAt.value < c.remaining
    ensures r.cancelled ==> r.remaining == c.remaining - cancelAt.value - 1
    ensures !r.cancelled ==> r.remaining == (if c.remaining > 0 then 0 else c.remaining)
    decreases if c.remaining > 0 then c.remaining else 0
  {
    if !Ticking(c) then c
    else
      var next := Tick(c);
      if cancelAt == Some(0) then RequestCancel(next)
      else Run(next, if cancelAt.Some? then Some(cancelAt.value - 1) else None)
  }

  /** The countdown thread's loop, also returning the progress values it
      displays, one per tick: 0, 1, 2, ... up to the tick it stopped at. */
  method RunWithDisplay(delay: int, cancelAt: Option<nat>) returns (final: Countdown, shown: seq<int>)
    ensures final == Run(Start(delay), cancelAt)
    ensures |shown| == Progress(final)
    ensures forall i :: 0 <= i < |shown| ==> shown[i] == i
  {
    var c := Start(delay);
    var pending := cancelAt;
    shown := [];
    while Ticking(c)
      invariant c.total == delay
      invariant c.cancelled ==> c == Run(Start(delay), cancelAt)
      invariant !c.cancelled ==> Run(c, pending) == Run(Start(delay), cancelAt)
      invariant |shown| == Progress(c)
      invariant forall i :: 0 <= i < |shown| ==> shown[i] == i
      decreases c.remaining
    {
      shown := shown + [Progress(c)];
      c := Tick(c);
      if pending == Some(0) {
        c := RequestCancel(c);
      } else if pending.Some? {
        pending := Some(pending.value - 1);
      }
    }
    final := c;
  }
}

=== FILE: delay.dfy ===
/** `calculate_retry_delay`: how long the worker waits before re-queueing a
    failed action. A 429 response that announces an integer reset instant
    sets the wait; everything else falls back to the user's intervals. */
module Delay {
  import opened Wrappers
  import Text
  import Config
  import Actions

  /** What the model keeps of an HTTP response: the status code and the raw
      `X-Rate-Limit-Reset` header value, if the server sent one. */
  datatype HttpResponse = HttpResponse(status: int, rateLimitReset: Option<string>)

  /** The fallback intervals from the user options. */
  datatype RetryIntervals = RetryIntervals(searchRetryMinutes: int, likeRetryMinutes: int, replyRetryHours: int)

  /** The option defaults: 15 minutes for search and like, 24 hours for reply. */
  function DefaultIntervals(): RetryIntervals {
    RetryIntervals(15, 15, 24)
  }

  predicate NonNegative(iv: RetryIntervals) {
    iv.searchRetryMinutes >= 0 && iv.likeRetryMinutes >= 0 && iv.replyRetryHours >= 0
  }

  const TooManyRequests := 429
  /** The wait for a call type none of the three names. */
  const UnknownTypeDelay := 300

  /** The statuses for which `raise_for_status()` raises. */
  predicate IsHttpError(status: int) {
    400 <= status < 600
  }

  /** Python truthiness of a response object of the HTTP library: true
      exactly when `raise_for_status()` would not raise. */
  predicate Truthy(resp: HttpResponse) {
    !IsHttpError(resp.status)
  }

  /** The reset instant a response announces: only a 429 counts, and only
      when the header is present, non-empty, and accepted by `int()`. */
  function AnnouncedReset(resp: HttpResponse): (r: Option<int>)
    ensures r.Some? <==> && resp.status == TooManyRequests
                         && resp.rateLimitReset.Some?
                         && Text.ParsePyInt(resp.rateLimitReset.value).Some?
    ensures r.Some? ==> r == Text.ParsePyInt(resp.rateLimitReset.value)
  {
    if resp.status == TooManyRequests && resp.rateLimitReset.Some? && resp.rateLimitReset.value != "" then
      Text.ParsePyInt(resp.rateLimitReset.value)
    else
      None
  }

  /** The configured wait for a call type, in seconds. */
  function FallbackDelay(callType: string, iv: RetryIntervals): (d: int)
    ensures Actions.ParseKind(callType).None? ==> d == UnknownTypeDelay
    ensures NonNegative(iv) ==> d >= 0
  {
    if callType == "search" then iv.searchRetryMinutes * 60
    else if callType == "like" then iv.likeRetryMinutes * 60
    else if callType == "reply" then iv.replyRetryHours * 60 * 60
    else UnknownTypeDelay
  }

  /** The fallback in each kind's own unit: minutes for search and like,
      hours for reply. */
  lemma FallbackUnits(iv: RetryIntervals)
    ensures FallbackDelay(Actions.KindTag(Actions.Search), iv) == iv.searchRetryMinutes * 60
    ensures FallbackDelay(Actions.KindTag(Actions.Like), iv) == iv.likeRetryMinutes * 60
    ensures FallbackDelay(Actions.KindTag(Actions.Reply), iv) == iv.replyRetryHours * 3600
  {
  }

  /** With the default options every kind waits exactly one window of its
      Free-tier limit: 900 s for search and like, 86400 s for reply. */
  lemma {:induction false} DefaultFallbackIsFreeWindow(k: Actions.Kind)
    ensures var cell := Config.Limits()["Free"][Actions.KindTag(k)];
            Config.WindowSeconds(cell.window) == Some(FallbackDelay(Actions.KindTag(k), DefaultIntervals()))
  {
    var cell := Config.Limits()["Free"][Actions.KindTag(k)];
    match k
    case Search => assert cell.window == Config.Window15m;
    case Like => assert cell.window == Config.Window15m;
    case Reply => assert cell.window == Config.Window24h;
  }

  /** The retry wait, with the code's guard read as intended: a response
      with an announced reset makes the worker wait until that instant and
      no longer (zero if it has passed); otherwise the configured fallback.
      `retries` is accepted and never read. */
  function RetryDelay(response: Option<HttpResponse>, callType: string, iv: RetryIntervals, now: int, retries: int): (d: int)
    ensures response.Some? && AnnouncedReset(response.value).Some? ==>
              var reset := AnnouncedReset(response.value).value;
              d >= 0 && now + d >= reset && (d == 0 || now + d == reset)
    ensures !(response.Some? && AnnouncedReset(response.value).Some?) ==> d == FallbackDelay(callType, iv)
  {
    if response.Some? && AnnouncedReset(response.value).Some? then
      var reset := AnnouncedReset(response.value).value;
      if reset - now > 0 then reset - now else 0
    else
      FallbackDelay(callType, iv)
  }

  /** The attempt count plays no part in the wait. */
  lemma RetryDelayIgnoresRetries(response: Option<HttpResponse>, callType: string, iv: RetryIntervals, now: int, r1: int, r2: int)
    ensures RetryDelay(response, callType, iv, now, r1) == RetryDelay(response, callType, iv, now, r2)
  {
  }

  /** No wait is negative while the configured intervals are not. */
  lemma RetryDelayNonNegative(response: Option<HttpResponse>, callType: string, iv: RetryIntervals, now: int, retries: int)
    requires NonNegative(iv)
    ensures RetryDelay(response, callType, iv, now, retries) >= 0
  {
  }

  /** `calculate_retry_delay` as written: the guard first asks for the
      response's truthiness, which is false for every 4xx and 5xx response. */
  function RetryDelayAsWritten(response: Option<HttpResponse>, callType: string, iv: RetryIntervals, now: int, retries: int): (d: int)
    ensures response.Some? && response.value.status == TooManyRequests ==> d == FallbackDelay(callType, iv)
  {
    if response.Some? && Truthy(response.value) && AnnouncedReset(response.value).Some? then
      var reset := AnnouncedReset(response.value).value;
      if reset - now > 0 then reset - now else 0
    else
      FallbackDelay(callType, iv)
  }

  /** The discrepancy, on every instant `now` whose header `int()` can read:
      a search rejected with 429 whose header says the quota returns in 60
      seconds. As written the worker waits the 15-minute fallback; read as
      intended it waits 60 s. */
  lemma AsWrittenMissesAnnouncedReset(now: int)
    requires Text.WithinStrDigits(now + 60)
    ensures var resp := HttpResponse(TooManyRequests, Some(Text.FormatInt(now + 60)));
            && RetryDelayAsWritten(Some(resp), "search", DefaultIntervals(), now, 0) == 900
            && RetryDelay(Some(resp), "search", DefaultIntervals(), now, 0) == 60
  {
    Text.ParseFormatRoundTrip(now + 60);
  }
}

=== FILE: inputs.dfy ===
/** What happens to the user's input before anything is queued or sent:
    the search-window checks, the reply-text checks, the search query and
    its parameter dictionary, and the masking of secrets in error details. */
module Inputs {
  import opened Wrappers
  import Text
  import Config
  import Actions

  /** A time entered as `YYYY-MM-DD HH:MM`, read as UTC. */
  datatype DateTime = DateTime(year: int, month: int, day: int, hour: int, minute: int)

  predicate IsLeapYear(y: int) {
    y % 4 == 0 && (y % 100 != 0 || y % 400 == 0)
  }

  function DaysInMonth(y: int, m: int): int
    requires 1 <= m <= 12
  {
    if m == 2 then (if IsLeapYear(y) then 29 else 28)
    else if m == 4 || m == 6 || m == 9 || m == 11 then 30
    else 31
  }

  /** The entries `strptime` accepts; any other text raises `ValueError`. */
  predicate ValidDateTime(t: DateTime) {
    && 1 <= t.year <= 9999
    && 1 <= t.month <= 12
    && 1 <= t.day <= DaysInMonth(t.year, t.month)
    && 0 <= t.hour < 24
    && 0 <= t.minute < 60
  }

  /** The year counted from March, so that a leap day falls last in it:
      January and February belong to the previous shifted year. */
  function ShiftedYear(y: int, m: int): int
    requires 1 <= m <= 12
  {
    if m <= 2 then y - 1 else y
  }

  /** Months counted from March: March is 0, February is 11. */
  function ShiftedMonth(m: int): (mp: int)
    requires 1 <= m <= 12
    ensures 0 <= mp < 12
    ensures mp == 11 <==> m == 2
  {
    if m > 2 then m - 3 else m + 9
  }

  /** Days from 1970-01-01 to March 1 of year `y1`, counted in 400-year eras
      of 146097 days. Dafny's `/` is Euclidean, which for the positive
      divisors used here is floor division. */
  function MarchFirst(y1: int): int {
    var era := y1 / 400;
    var yoe := y1 - era * 400;
    era * 146097 + yoe * 365 + yoe / 4 - yoe / 100 - 719468
  }

  /** Days from March 1 to the first day of shifted month `mp`. */
  function MonthOffset(mp: int): int {
    (153 * mp + 2) / 5
  }

  /** Days from 1970-01-01 to the given civil date (proleptic Gregorian). */
  function DaysFromCivil(y: int, m: int, d: int): int
    requires 1 <= m <= 12
  {
    MarchFirst(ShiftedYear(y, m)) + MonthOffset(ShiftedMonth(m)) + d - 1
  }

  /** A shifted year ends with February of the next civil year, so it has a
      leap day exactly when that civil year is a leap year. */
  lemma ShiftedYearLength(y1: int)
    ensures MarchFirst(y1 + 1) - MarchFirst(y1) == if IsLeapYear(y1 + 1) then 366 else 365
  {
    var era := y1 / 400;
    var yoe := y1 - era * 400;
    if yoe == 399 {
      EraEndYearLength(y1, era);
    } else {
      InEraYearLength(y1, era, yoe);
    }
  }

  /** The last shifted year of an era ends in a year divisible by 400. */
  lemma EraEndYearLength(y1: int, era: int)
    requires y1 == era * 400 + 399
    ensures MarchFirst(y1 + 1) - MarchFirst(y1) == 366 && IsLeapYear(y1 + 1)
  {
    MarchFirstInEra(y1, era, 399);
    MarchFirstInEra(y1 + 1, era + 1, 0);
    assert (y1 + 1) / 4 == (era + 1) * 100 && (y1 + 1) / 100 == (era + 1) * 4 && (y1 + 1) / 400 == era + 1;
  }

  /** Any other shifted year gains the leap day of the fourth-year rule,
      less the hundredth-year exception. */
  lemma InEraYearLength(y1: int, era: int, k: int)
    requires 0 <= k < 399 && y1 == era * 400 + k
    ensures MarchFirst(y1 + 1) - MarchFirst(y1) == if IsLeapYear(y1 + 1) then 366 else 365
  {
    MarchFirstInEra(y1, era, k);
    MarchFirstInEra(y1 + 1, era, k + 1);
    LeapYearWithinEra(y1 + 1, era, k + 1);
    LeapDaysStep(k);
  }

  /** Going from year `k` to year `k + 1` of an era adds one to the count of
      fourth years exactly when `k + 1` is one, and one to the count of
      hundredth years exactly when `k + 1` is one. */
  lemma LeapDaysStep(k: int)
    requires 0 <= k < 399
    ensures ((k + 1) / 4 - k / 4) - ((k + 1) / 100 - k / 100)
            == if (k + 1) % 4 == 0 && (k + 1) % 100 != 0 then 1 else 0
  {
    if (k + 1) % 100 == 0 {
      assert (k + 1) / 4 - k / 4 == 1 && (k + 1) / 100 - k / 100 == 1;
    } else if (k + 1) % 4 == 0 {
      assert (k + 1) / 4 - k / 4 == 1 && (k + 1) / 100 - k / 100 == 0;
    } else {
      assert (k + 1) / 4 - k / 4 == 0 && (k + 1) / 100 - k / 100 == 0;
    }
  }

  /** March 1 of the `k`-th year of an era: whole eras, then 365 days a year
      plus a leap day every fourth year except every hundredth. */
  lemma MarchFirstInEra(y: int, era: int, k: int)
    requires 0 <= k < 400 && y == era * 400 + k
    ensures MarchFirst(y) == era * 146097 + k * 365 + k / 4 - k / 100 - 719468
  {
    assert y / 400 == era;
  }

  /** Inside a 400-year era only the year's offset decides whether it leaps. */
  lemma LeapYearWithinEra(y: int, era: int, k: int)
    requires 0 < k < 400 && y == era * 400 + k
    ensures IsLeapYear(y) <==> k % 4 == 0 && k % 100 != 0
  {
    assert y / 4 == era * 100 + k / 4;
    assert y / 100 == era * 4 + k / 100;
    assert y / 400 == era;
  }

  /** Later shifted years start later. */
  lemma {:induction false} MarchFirstMonotone(a: int, b: int)
    requires a <= b
    ensures MarchFirst(a) <= MarchFirst(b)
    decreases b - a
  {
    if a < b {
      ShiftedYearLength(a);
      MarchFirstMonotone(a + 1, b);
    }
  }

  /** Each month ends where the next one begins; February, the last month
      of its shifted year, ends where the next shifted year begins. */
  lemma MonthEnd(y: int, m: int)
    requires 1 <= m <= 12
    ensures var mp := ShiftedMonth(m);
            MonthOffset(mp) + DaysInMonth(y, m)
            == if m == 2 then MarchFirst(y) - MarchFirst(y - 1) else MonthOffset(mp + 1)
  {
    if m == 2 {
      ShiftedYearLength(y - 1);
    }
  }

  /** Later months of a shifted year start no earlier. */
  lemma MonthOffsetMonotone(p: int, q: int)
    requires 0 <= p <= q
    ensures MonthOffset(p) <= MonthOffset(q)
  {
  }

  /** A valid date's day number lies inside its shifted year. */
  lemma DayInShiftedYear(y: int, m: int, d: int)
    requires 1 <= m <= 12 && 1 <= d <= DaysInMonth(y, m)
    ensures var y1 := ShiftedYear(y, m);
            MarchFirst(y1) <= DaysFromCivil(y, m, d) < MarchFirst(y1 + 1)
  {
    var mp := ShiftedMonth(m);
    MonthEnd(y, m);
    if m != 2 {
      MonthOffsetMonotone(mp + 1, 11);
      MonthEnd(ShiftedYear(y, m) + 1, 2);
    }
  }

  /** Calendar order of dates: by year, then month, then day. */
  predicate DateBefore(y: int, m: int, d: int, y': int, m': int, d': int) {
    y < y' || (y == y' && (m < m' || (m == m' && d < d')))
  }

  /** Later valid dates have larger day numbers. */
  lemma DaysFromCivilOrder(y: int, m: int, d: int, y': int, m': int, d': int)
    requires 1 <= m <= 12 && 1 <= d <= DaysInMonth(y, m)
    requires 1 <= m' <= 12 && 1 <= d' <= DaysInMonth(y', m')
    requires DateBefore(y, m, d, y', m', d')
    ensures DaysFromCivil(y, m, d) < DaysFromCivil(y', m', d')
  {
    var y1, y1' := ShiftedYear(y, m), ShiftedYear(y', m');
    var mp, mp' := ShiftedMonth(m), ShiftedMonth(m');
    DayInShiftedYear(y, m, d);
    DayInShiftedYear(y', m', d');
    if y1 < y1' {
      MarchFirstMonotone(y1 + 1, y1');
    } else {
      assert y1 == y1' && (mp < mp' || (mp == mp' && d < d'));
      assert DaysFromCivil(y, m, d) - DaysFromCivil(y', m', d') == MonthOffset(mp) + d - MonthOffset(mp') - d';
      if mp < mp' {
        MonthEnd(y, m);
        assert m != 2;
        MonthOffsetMonotone(mp + 1, mp');
      }
    }
  }

  /** The instant of a valid entry in UTC epoch seconds. */
  function EpochSeconds(t: DateTime): int
    requires ValidDateTime(t)
  {
    DaysFromCivil(t.year, t.month, t.day) * 86400 + t.hour * 3600 + t.minute * 60
  }

  /** The conversion puts the epoch at zero. */
  lemma EpochStartsAtZero()
    ensures EpochSeconds(DateTime(1970, 1, 1, 0, 0)) == 0
  {
    var t := DateTime(1970, 1, 1, 0, 0);
    assert ValidDateTime(t);
    assert MarchFirst(1969) == -306 && MonthOffset(10) == 306;
    assert DaysFromCivil(1970, 1, 1) == 0;
    assert EpochSeconds(t) == DaysFromCivil(1970, 1, 1) * 86400 + 0 * 3600 + 0 * 60;
  }

  /** The first instant of 2006, the earliest year a search may start in. */
  lemma Year2006Starts()
    ensures EpochSeconds(DateTime(2006, 1, 1, 0, 0)) == 1136073600
  {
    var t := DateTime(2006, 1, 1, 0, 0);
    assert ValidDateTime(t);
    assert MarchFirst(2005) == 12843 && MonthOffset(10) == 306;
    assert DaysFromCivil(2006, 1, 1) == 13149;
    assert EpochSeconds(t) == DaysFromCivil(2006, 1, 1) * 86400 + 0 * 3600 + 0 * 60;
  }

  /** The order `datetime` objects compare in: by year, month, day, hour,
      then minute. */
  predicate Before(a: DateTime, b: DateTime) {
    || DateBefore(a.year, a.month, a.day, b.year, b.month, b.day)
    || (a.year == b.year && a.month == b.month && a.day == b.day
        && (a.hour < b.hour || (a.hour == b.hour && a.minute < b.minute)))
  }

  /** Comparing two valid entries as `datetime` objects and comparing their
      epoch seconds agree: one is before the other exactly when its instant
      is smaller. */
  lemma EpochSecondsOrder(a: DateTime, b: DateTime)
    requires ValidDateTime(a) && ValidDateTime(b)
    ensures Before(a, b) <==> EpochSeconds(a) < EpochSeconds(b)
  {
    if DateBefore(a.year, a.month, a.day, b.year, b.month, b.day) {
      DaysFromCivilOrder(a.year, a.month, a.day, b.year, b.month, b.day);
    } else if DateBefore(b.year, b.month, b.day, a.year, a.month, a.day) {
      DaysFromCivilOrder(b.year, b.month, b.day, a.year, a.month, a.day);
    }
  }

  datatype InputError =
    | UnparsableTime
    | EndNotAfterStart
    | StartBefore2006
    | StartInFuture
    | KeywordsRequired
    | WindowEmptyAfterClamp

  /** A validated search window: stripped keywords and UTC epoch seconds. */
  datatype SearchInput = SearchInput(keywords: string, startTime: int, endTime: int)

  /** The latest end a search may ask for: ten seconds before `now`. */
  function LatestEnd(now: int): int {
    now - Config.MinEndTimeOffset
  }

  /** `validate_inputs` as written. Checks in order: both times parse, start
      before end, start year at least 2006, start not after `now`; then an
      end later than `now - 10 s` is pulled back to exactly that instant;
      then the stripped keywords must be non-empty. */
  function ValidateInputsAsWritten(startEntry: DateTime, endEntry: DateTime, keywordEntry: string, now: int): (r: Result<SearchInput, InputError>)
    ensures r.Ok? <==>
              && ValidDateTime(startEntry) && ValidDateTime(endEntry)
              && EpochSeconds(startEntry) < EpochSeconds(endEntry)
              && startEntry.year >= 2006
              && EpochSeconds(startEntry) <= now
              && |Text.Strip(keywordEntry)| > 0
    ensures r == Err(UnparsableTime) <==> !ValidDateTime(startEntry) || !ValidDateTime(endEntry)
    ensures r == Err(KeywordsRequired) ==> |Text.Strip(keywordEntry)| == 0
    ensures r.Ok? ==> && r.value.keywords == Text.Strip(keywordEntry)
                      && r.value.startTime == EpochSeconds(startEntry)
                      && r.value.endTime <= EpochSeconds(endEntry)
                      && r.value.endTime <= LatestEnd(now)
                      && (r.value.endTime == EpochSeconds(endEntry) || r.value.endTime == LatestEnd(now))
  {
    if !ValidDateTime(startEntry) || !ValidDateTime(endEntry) then Err(UnparsableTime)
    else
      var start := EpochSeconds(startEntry);
      var end := EpochSeconds(endEntry);
      if start >= end then Err(EndNotAfterStart)
      else if startEntry.year < 2006 then Err(StartBefore2006)
      else if start > now then Err(StartInFuture)
      else
        var clampedEnd := if end > LatestEnd(now) then LatestEnd(now) else end;
        var keywords := Text.Strip(keywordEntry);
        if |keywords| == 0 then Err(KeywordsRequired)
        else Ok(SearchInput(keywords, start, clampedEnd))
  }

  /** The discrepancy: a start in the current minute passes every check, and
      the clamp then moves the end before the start. At 12:00:05 UTC on
      2024-01-01, a search from 12:00 to 12:05 validates with its end at
      11:59:55. */
  lemma ClampCanInvertWindow()
    ensures var r := ValidateInputsAsWritten(DateTime(2024, 1, 1, 12, 0), DateTime(2024, 1, 1, 12, 5), "dafny", 1704110405);
            r.Ok? && r.value.endTime < r.value.startTime
  {
    NoonOfNewYear2024();
    var k := "dafny";
    assert k[0] == 'd' && k[|k| - 1] == 'y';
    Text.StripUnpadded(k);
  }

  /** The two instants of the example above, in epoch seconds. */
  lemma NoonOfNewYear2024()
    ensures ValidDateTime(DateTime(2024, 1, 1, 12, 0)) && ValidDateTime(DateTime(2024, 1, 1, 12, 5))
    ensures EpochSeconds(DateTime(2024, 1, 1, 12, 0)) == 1704110400
    ensures EpochSeconds(DateTime(2024, 1, 1, 12, 5)) == 1704110700
  {
  }

  /** Which windows the clamp inverts: every valid search whose start lies
      in the last ten seconds before `now` is accepted with its end pulled
      back to or before its start. */
  lemma RecentStartIsInverted(startEntry: DateTime, endEntry: DateTime, keywordEntry: string, now: int)
    requires ValidDateTime(startEntry) && ValidDateTime(endEntry) && startEntry.year >= 2006
    requires EpochSeconds(startEntry) < EpochSeconds(endEntry)
    requires LatestEnd(now) <= EpochSeconds(startEntry) <= now
    requires |Text.Strip(keywordEntry)| > 0
    ensures var r := ValidateInputsAsWritten(startEntry, endEntry, keywordEntry, now);
            r.Ok? && r.value.endTime <= r.value.startTime
  {
  }

  /** `validate_inputs` with the window re-checked after the clamp: every
      accepted search has its start strictly before its (clamped) end. */
  function ValidateInputs(startEntry: DateTime, endEntry: DateTime, keywordEntry: string, now: int): (r: Result<SearchInput, InputError>)
    ensures r.Ok? ==> r.value.startTime < r.value.endTime
    ensures r.Ok? ==> r == ValidateInputsAsWritten(startEntry, endEntry, keywordEntry, now)
    ensures ValidateInputsAsWritten(startEntry, endEntry, keywordEntry, now).Err? ==>
              r == ValidateInputsAsWritten(startEntry, endEntry, keywordEntry, now)
    ensures r == Err(WindowEmptyAfterClamp) <==>
              && ValidateInputsAsWritten(startEntry, endEntry, keywordEntry, now).Ok?
              && EpochSeconds(startEntry) >= LatestEnd(now)
  {
    var r := ValidateInputsAsWritten(startEntry, endEntry, keywordEntry, now);
    if r.Ok? && r.value.startTime >= r.value.endTime then Err(WindowEmptyAfterClamp) else r
  }

  datatype ReplyError = ReplyTextRequired | ReplyTooLong

  /** The reply-text checks of `queue_actions`: the stripped text must be
      non-empty and at most 280 characters. */
  function ValidateReplyText(entry: string): (r: Result<string, ReplyError>)
    ensures r.Ok? <==> 0 < |Text.Strip(entry)| <= Config.MaxPostLength
    ensures r.Ok? ==> r.value == Text.Strip(entry)
    ensures r == Err(ReplyTextRequired) <==> |Text.Strip(entry)| == 0
    ensures r == Err(ReplyTooLong) <==> |Text.Strip(entry)| > Config.MaxPostLength
  {
    var text := Text.Strip(entry);
    if |text| == 0 then Err(ReplyTextRequired)
    else if |text| > Config.MaxPostLength then Err(ReplyTooLong)
    else Ok(text)
  }

  const NoRetweets := " -is:retweet"
  const VerifiedOnly := " is:verified"
  const NoReplies := " -is:reply"

  /** The search query: the keywords, the retweet exclusion, then the
      verified filter and the reply exclusion when chosen, in that order. */
  function BuildQuery(keywords: string, verifiedOnly: bool, noReplies: bool): (q: string)
    ensures |q| == |keywords| + |NoRetweets| + (if verifiedOnly then |VerifiedOnly| else 0) + (if noReplies then |NoReplies| else 0)
    ensures q[..|keywords|] == keywords
    ensures q[|keywords|..|keywords| + |NoRetweets|] == NoRetweets
  {
    keywords + NoRetweets + (if verifiedOnly then VerifiedOnly else "") + (if noReplies then NoReplies else "")
  }

  /** Reads the two filters back off a query built for `keywords`. */
  function ReadFilters(q: string, keywords: string): (filters: (bool, bool))
    requires |q| >= |keywords| + |NoRetweets|
  {
    var rest := q[|keywords| + |NoRetweets|..];
    ( |rest| >= |VerifiedOnly| && rest[..|VerifiedOnly|] == VerifiedOnly,
      |rest| >= |NoReplies| && rest[|rest| - |NoReplies|..] == NoReplies )
  }

  /** The filters are recoverable from the query, so different choices
      always give different queries. */
  lemma BuildQueryRecoversFilters(keywords: string, verifiedOnly: bool, noReplies: bool)
    ensures ReadFilters(BuildQuery(keywords, verifiedOnly, noReplies), keywords) == (verifiedOnly, noReplies)
  {
    var q := BuildQuery(keywords, verifiedOnly, noReplies);
    var rest := q[|keywords| + |NoRetweets|..];
    assert rest == (if verifiedOnly then VerifiedOnly else "") + (if noReplies then NoReplies else "");
    if verifiedOnly && !noReplies {
      assert rest[|rest| - |NoReplies|..] != NoReplies by {
        assert rest[|rest| - |NoReplies|] == 's';
      }
    }
  }

  /** The API's ceiling on `max_results`. */
  const ApiMaxResults := 100

  /** `max_results` sent with a search: the option, capped at 100 (no lower bound). */
  function MaxResults(maxSearchResults: int): (n: int)
    ensures n <= ApiMaxResults && n <= maxSearchResults
    ensures n == maxSearchResults || n == ApiMaxResults
  {
    if maxSearchResults < ApiMaxResults then maxSearchResults else ApiMaxResults
  }

  /** The query parameters of the search request, as `(key, value)` text pairs
      in the dictionary's order; times are epoch seconds rendered in decimal.
      It stands alone: `Worker.PerformSearch` takes the request's outcome as
      an input and does not build the request. */
  function SearchRequestParams(p: Actions.SearchParams, maxSearchResults: int): (params: seq<(string, string)>)
    ensures |params| == 7
    ensures params[0] == ("query", BuildQuery(p.keywords, p.verifiedOnly, p.noReplies))
    ensures params[1] == ("start_time", Text.FormatInt(p.startTime))
    ensures params[2] == ("end_time", Text.FormatInt(p.endTime))
    ensures params[3] == ("max_results", Text.FormatInt(MaxResults(maxSearchResults)))
  {
    [ ("query", BuildQuery(p.keywords, p.verifiedOnly, p.noReplies)),
      ("start_time", Text.FormatInt(p.startTime)),
      ("end_time", Text.FormatInt(p.endTime)),
      ("max_results", Text.FormatInt(MaxResults(maxSearchResults))),
      ("tweet.fields", "created_at"),
      ("expansions", "author_id"),
      ("user.fields", "username") ]
  }

  /** The request's `start_time` and `end_time` are read back by `int()` as
      the search's own window, for times within `int()`'s digit limit. */
  lemma SearchRequestTimes(p: Actions.SearchParams, maxSearchResults: int)
    requires Text.WithinStrDigits(p.startTime) && Text.WithinStrDigits(p.endTime)
    ensures var params := SearchRequestParams(p, maxSearchResults);
            && params[1].0 == "start_time" && Text.ParsePyInt(params[1].1) == Some(p.startTime)
            && params[2].0 == "end_time" && Text.ParsePyInt(params[2].1) == Some(p.endTime)
  {
    Text.ParseFormatRoundTrip(p.startTime);
    Text.ParseFormatRoundTrip(p.endTime);
  }

  const MaskedValue := "***MASKED***"

  /** A parameter name that looks like a credential. */
  predicate IsSensitiveKey(key: string) {
    Text.Contains(Text.Lower(key), "token") || Text.Contains(Text.Lower(key), "key")
  }

  /** The parameter masking of `_format_api_error_details`: the same keys in
      the same order; a credential-looking key has its value replaced, every
      other value is kept. */
  function MaskParams(params: seq<(string, string)>): (r: seq<(string, string)>)
    ensures |r| == |params|
    ensures forall i :: 0 <= i < |params| ==> r[i].0 == params[i].0
    ensures forall i :: 0 <= i < |params| ==>
              r[i].1 == (if IsSensitiveKey(params[i].0) then MaskedValue else params[i].1)
  {
    seq(|params|, i requires 0 <= i < |params| =>
      (params[i].0, if IsSensitiveKey(params[i].0) then MaskedValue else params[i].1))
  }

  /** Masking twice masks nothing more. */
  lemma MaskParamsIdempotent(params: seq<(string, string)>)
    ensures MaskParams(MaskParams(params)) == MaskParams(params)
  {
  }

  /** Masking ignores case: `API_KEY`, `Bearer_Token` and `access_token`
      are all masked. */
  lemma SensitiveKeysIgnoreCase()
    ensures IsSensitiveKey("API_KEY")
    ensures IsSensitiveKey("Bearer_Token")
    ensures IsSensitiveKey("access_token")
  {
    assert Text.OccursAt(Text.Lower("API_KEY"), "key", 4);
    assert Text.OccursAt(Text.Lower("Bearer_Token"), "token", 7);
    assert Text.OccursAt(Text.Lower("access_token"), "token", 7);
  }
}

=== FILE: stats.dfy ===
/** `APICallStats`: average call durations read off the call log, and the
    statistics report that pairs them with the tier's rate limits. */
module Stats {
  import opened Wrappers
  import Config
  import Text
  import CallLog

  datatype Stats = Stats(log: CallLog.CallLog, licenseLevel: string)

  /** The statistics object as the application builds it: on the shared log, tier Free. */
  function NewStats(log: CallLog.CallLog): (s: Stats)
    ensures s.log == log && s.licenseLevel == "Free"
  {
    Stats(log, "Free")
  }

  /** `set_license_level`: the new tier replaces the old one; the log is untouched. */
  function SetLicenseLevel(s: Stats, level: string): (r: Stats)
    ensures r.licenseLevel == level
    ensures r.log == s.log
  {
    s.(licenseLevel := level)
  }

  /** Setting the tier twice keeps only the second setting. */
  lemma SetLicenseLevelLastWins(s: Stats, a: string, b: string)
    ensures SetLicenseLevel(SetLicenseLevel(s, a), b) == SetLicenseLevel(s, b)
  {
  }

  datatype StatsError = UnknownCallType(callType: string) | UnknownTier(tier: string)

  /** The call-type -> reference dictionary of `get_avg_duration`. */
  function ApiRefFor(callType: string): (r: Option<string>)
    ensures r.Some? <==> callType in Config.KindNames
  {
    if callType == "search" then Some("GET /2/tweets/search/recent")
    else if callType == "reply" then Some("POST /2/tweets")
    else if callType == "like" then Some("POST /2/users/:id/likes")
    else None
  }

  /** An entry that enters the average for reference `ref`. */
  predicate Counted(e: CallLog.LogEntry, ref: string) {
    e.apiRef == ref && !CallLog.IsFailed(e)
  }

  /** The durations of the counted entries, in log order. */
  function Durations(entries: seq<CallLog.LogEntry>, ref: string): (ds: seq<real>)
    ensures |ds| <= |entries|
  {
    if |entries| == 0 then []
    else
      var last := entries[|entries| - 1];
      Durations(entries[..|entries| - 1], ref) + (if Counted(last, ref) then [last.duration] else [])
  }

  function Sum(xs: seq<real>): real {
    if |xs| == 0 then 0.0 else Sum(xs[..|xs| - 1]) + xs[|xs| - 1]
  }

  /** The arithmetic mean, and 0.0 for no values (no division by zero). */
  function Mean(xs: seq<real>): (m: real)
    ensures |xs| == 0 ==> m == 0.0
    ensures |xs| > 0 ==> m * (|xs| as real) == Sum(xs)
  {
    if |xs| == 0 then 0.0 else Sum(xs) / (|xs| as real)
  }

  /** `get_avg_duration`: the mean duration of the non-failed entries logged
      under the reference of `callType`. The reference is looked up in the
      filter of the comprehension, once per entry, so an unknown call type is
      the dictionary's `KeyError` only when the log has an entry; on an empty
      log it averages nothing and gives 0.0. */
  function AvgDuration(s: Stats, callType: string): (r: Result<real, StatsError>)
    ensures r.Err? <==> callType !in Config.KindNames && |s.log.entries| > 0
    ensures r.Err? ==> r.error == UnknownCallType(callType)
    ensures r.Ok? && callType !in Config.KindNames ==> r.value == 0.0
    ensures r.Ok? && callType in Config.KindNames ==>
              var ds := Durations(s.log.entries, ApiRefFor(callType).value);
              && (|ds| == 0 ==> r.value == 0.0)
              && (|ds| > 0 ==> r.value * (|ds| as real) == Sum(ds))
  {
    match ApiRefFor(callType)
    case None => if |s.log.entries| == 0 then Ok(0.0) else Err(UnknownCallType(callType))
    case Some(ref) => Ok(Mean(Durations(s.log.entries, ref)))
  }

  /** An entry that is failed, or logged under another reference, does not
      move any average: appending it leaves the counted durations as they were. */
  lemma AppendUncountedKeepsDurations(entries: seq<CallLog.LogEntry>, e: CallLog.LogEntry, ref: string)
    requires !Counted(e, ref)
    ensures Durations(entries + [e], ref) == Durations(entries, ref)
  {
    assert (entries + [e])[..|entries|] == entries;
  }

  /** A counted entry adds its duration at the end. */
  lemma AppendCountedAddsDuration(entries: seq<CallLog.LogEntry>, e: CallLog.LogEntry, ref: string)
    requires Counted(e, ref)
    ensures Durations(entries + [e], ref) == Durations(entries, ref) + [e.duration]
  {
    assert (entries + [e])[..|entries|] == entries;
  }

  /** Every counted duration comes from an entry with the reference that did not fail. */
  lemma {:induction false} DurationsComeFromCountedEntries(entries: seq<CallLog.LogEntry>, ref: string, d: real)
    requires d in Durations(entries, ref)
    ensures exists i :: 0 <= i < |entries| && Counted(entries[i], ref) && entries[i].duration == d
    decreases |entries|
  {
    var init := entries[..|entries| - 1];
    var last := entries[|entries| - 1];
    if d in Durations(init, ref) {
      DurationsComeFromCountedEntries(init, ref, d);
      var i :| 0 <= i < |init| && Counted(init[i], ref) && init[i].duration == d;
      assert entries[i] == init[i];
    } else {
      assert Counted(last, ref) && last.duration == d;
    }
  }

  /** A log of failures only averages to 0.0 for every call type. */
  lemma {:induction false} OnlyFailuresAverageZero(entries: seq<CallLog.LogEntry>, ref: string)
    requires forall i :: 0 <= i < |entries| ==> CallLog.IsFailed(entries[i])
    ensures Durations(entries, ref) == []
    decreases |entries|
  {
    if |entries| > 0 {
      OnlyFailuresAverageZero(entries[..|entries| - 1], ref);
    }
  }

  lemma {:induction false} SumBounds(xs: seq<real>, lo: real, hi: real)
    requires forall i :: 0 <= i < |xs| ==> lo <= xs[i] <= hi
    ensures (|xs| as real) * lo <= Sum(xs) <= (|xs| as real) * hi
    decreases |xs|
  {
    if |xs| > 0 {
      var init := xs[..|xs| - 1];
      SumBounds(init, lo, hi);
      var k := |init| as real;
      assert Sum(xs) == Sum(init) + xs[|xs| - 1];
      assert (|xs| as real) * lo == k * lo + lo;
      assert (|xs| as real) * hi == k * hi + hi;
    }
  }

  /** The mean lies between the smallest and the largest duration it averages. */
  lemma MeanWithinBounds(xs: seq<real>, lo: real, hi: real)
    requires |xs| > 0
    requires forall i :: 0 <= i < |xs| ==> lo <= xs[i] <= hi
    ensures lo <= Mean(xs) <= hi
  {
    SumBounds(xs, lo, hi);
    var n := |xs| as real;
    var m := Mean(xs);
    assert m * n == Sum(xs);
    assert n * lo <= m * n <= n * hi;
  }

  /** The order in which `format_stats` lists the call types. */
  const ReportOrder: seq<string> := ["search", "reply", "like"]

  /** One block of the report: title, the tier's limit and window, mean duration. */
  datatype StatsSection = StatsSection(title: string, limit: int, window: string, avgDuration: real)

  /** The report's first line and its blocks, in output order. */
  datatype StatsReport = StatsReport(header: string, sections: seq<StatsSection>)

  function Section(s: Stats, callType: string): StatsSection
    requires s.licenseLevel in Config.Limits() && callType in Config.KindNames
  {
    var cell := Config.Limits()[s.licenseLevel][callType];
    StatsSection(Text.Capitalize(callType), cell.limit, cell.window, AvgDuration(s, callType).value)
  }

  /** `format_stats`: the license line first, then Search, Reply and Like in
      that order, each with its row of the tier table and its mean duration;
      a tier missing from the table is the `KeyError` of the lookup. */
  function FormatStats(s: Stats): (r: Result<StatsReport, StatsError>)
    ensures r.Ok? <==> s.licenseLevel in Config.TierNames
    ensures r.Err? ==> r.error == UnknownTier(s.licenseLevel)
    ensures r.Ok? ==> r.value.header == "License Level: " + s.licenseLevel
    ensures r.Ok? ==> |r.value.sections| == |ReportOrder|
    ensures r.Ok? ==> forall i :: 0 <= i < |ReportOrder| ==>
              var sec := r.value.sections[i];
              && sec.title == Text.Capitalize(ReportOrder[i])
              && Config.Lookup(s.licenseLevel, ReportOrder[i]) == Ok(Config.RateLimit(sec.limit, sec.window))
              && AvgDuration(s, ReportOrder[i]) == Ok(sec.avgDuration)
  {
    if s.licenseLevel !in Config.Limits() then Err(UnknownTier(s.licenseLevel))
    else
      Ok(StatsReport(
        "License Level: " + s.licenseLevel,
        [Section(s, "search"), Section(s, "reply"), Section(s, "like")]))
  }

  /** The block titles read Search, Reply, Like. */
  lemma ReportTitles()
    ensures Text.Capitalize("search") == "Search"
    ensures Text.Capitalize("reply") == "Reply"
    ensures Text.Capitalize("like") == "Like"
  {
  }
}

=== FILE: text.dfy ===
/** The few string operations of Python's `str` that the application relies on:
    `strip()`, `lower()`, `capitalize()`, substring tests, and `int()` on a
    decimal string, together with the decimal rendering `str(n)` of an integer.
    Only ASCII characters are given their Python meaning; see README. */
module Text {
  import opened Wrappers

  /** ASCII characters Python's `str.isspace()` accepts, which `strip()`
      removes: space, \t, \n, \v, \f, \r and the four separators \x1c..\x1f. */
  predicate IsSpace(c: char) {
    IsIntSpace(c) || c == '\U{1C}' || c == '\U{1D}' || c == '\U{1E}' || c == '\U{1F}'
  }

  /** The narrower set `int()` skips around a number: space, \t, \n, \v, \f
      and \r, without the separators \x1c..\x1f. */
  predicate IsIntSpace(c: char) {
    c == ' ' || c == '\t' || c == '\n' || c == '\r' || c == '\U{0B}' || c == '\U{0C}'
  }

  /** The two whitespace sets: the one `strip()` removes and the one `int()` skips. */
  datatype Blanks = StripBlanks | IntBlanks

  predicate IsBlank(ws: Blanks, c: char) {
    match ws
    case StripBlanks => IsSpace(c)
    case IntBlanks => IsIntSpace(c)
  }

  /** Drops leading characters in `ws`: what remains is a suffix of `s`. */
  function TrimStart(s: string, ws: Blanks): (r: string)
    ensures |r| <= |s| && r == s[|s| - |r|..]
    ensures forall k :: 0 <= k < |s| - |r| ==> IsBlank(ws, s[k])
    ensures |r| == 0 || !IsBlank(ws, r[0])
  {
    if |s| > 0 && IsBlank(ws, s[0]) then TrimStart(s[1..], ws) else s
  }

  /** Drops trailing characters in `ws`: what remains is a prefix of `s`. */
  function TrimEnd(s: string, ws: Blanks): (r: string)
    ensures |r| <= |s| && r == s[..|r|]
    ensures forall k :: |r| <= k < |s| ==> IsBlank(ws, s[k])
    ensures |r| == 0 || !IsBlank(ws, r[|r| - 1])
  {
    if |s| > 0 && IsBlank(ws, s[|s| - 1]) then TrimEnd(s[..|s| - 1], ws) else s
  }

  /** `r` is `s[i..j]` and everything of `s` outside that slice is whitespace. */
  predicate TrimmedSlice(s: string, r: string, i: int, j: int) {
    && 0 <= i <= j <= |s| && r == s[i..j]
    && (forall k :: 0 <= k < i ==> IsSpace(s[k]))
    && (forall k :: j <= k < |s| ==> IsSpace(s[k]))
  }

  /** Python's `s.strip()`: the text between the leading and the trailing
      whitespace (`StripIsTrimmedSlice` places it in `s`), with no whitespace
      at either of its ends. It is empty exactly when `s` is all whitespace. */
  function Strip(s: string): (r: string)
    ensures |r| == 0 || (!IsSpace(r[0]) && !IsSpace(r[|r| - 1]))
    ensures |r| == 0 <==> forall k :: 0 <= k < |s| ==> IsSpace(s[k])
  {
    var t := TrimStart(s, StripBlanks);
    var r := TrimEnd(t, StripBlanks);
    assert |r| > 0 ==> !IsSpace(s[|s| - |t|]) by {
      if |r| > 0 {
        assert t[0] == r[0];
        assert s[|s| - |t|] == t[0];
      }
    }
    r
  }

  /** `strip()` removes exactly the leading and the trailing whitespace: its
      result is a slice of `s` with only whitespace before and after it. */
  lemma StripIsTrimmedSlice(s: string)
    ensures exists i, j :: TrimmedSlice(s, Strip(s), i, j)
  {
    var t := TrimStart(s, StripBlanks);
    var r := TrimEnd(t, StripBlanks);
    var i := |s| - |t|;
    var j := i + |r|;
    assert r == s[i..j] by {
      assert t == s[i..];
      assert r == t[..|r|];
    }
    forall k | j <= k < |s|
      ensures IsSpace(s[k])
    {
      assert s[k] == t[k - i];
    }
    assert Strip(s) == r;
    assert TrimmedSlice(s, r, i, j);
  }

  /** A text with no whitespace at either end is its own `strip()`. */
  lemma StripUnpadded(s: string)
    requires |s| == 0 || (!IsSpace(s[0]) && !IsSpace(s[|s| - 1]))
    ensures Strip(s) == s
  {
    assert TrimStart(s, StripBlanks) == s;
    assert TrimEnd(s, StripBlanks) == s;
    assert Strip(s) == TrimEnd(TrimStart(s, StripBlanks), StripBlanks);
  }

  /** Stripping twice is stripping once: the stripped text has nothing left
      to trim at either end. */
  lemma StripIdempotent(s: string)
    ensures Strip(Strip(s)) == Strip(s)
  {
    StripUnpadded(Strip(s));
  }

  /** Every character of `s` is `strip()` whitespace. */
  predicate AllSpace(s: string) {
    forall k :: 0 <= k < |s| ==> IsSpace(s[k])
  }

  /** The text `int()` reads as a number: `s` without the leading and the
      trailing characters of `IsIntSpace`. A separator \x1c..\x1f at either
      end stays, so text made only of `strip()` whitespace keeps nothing
      but such whitespace. */
  function IntStrip(s: string): (r: string)
    ensures |r| == 0 || (!IsIntSpace(r[0]) && !IsIntSpace(r[|r| - 1]))
  {
    var t := TrimStart(s, IntBlanks);
    var r := TrimEnd(t, IntBlanks);
    assert |r| > 0 ==> r[0] == t[0];
    r
  }

  /** A text with no `int()` whitespace at either end is read whole. */
  lemma IntStripUnpadded(s: string)
    requires |s| == 0 || (!IsIntSpace(s[0]) && !IsIntSpace(s[|s| - 1]))
    ensures IntStrip(s) == s
  {
    assert TrimStart(s, IntBlanks) == s;
    assert TrimEnd(s, IntBlanks) == s;
  }

  /** What `int()` reads of text made only of whitespace is again only
      whitespace: at most the separators \x1c..\x1f it does not skip. */
  lemma IntStripOfSpace(s: string)
    ensures AllSpace(s) ==> AllSpace(IntStrip(s))
  {
    var t := TrimStart(s, IntBlanks);
    var r := TrimEnd(t, IntBlanks);
    assert IntStrip(s) == r;
    if AllSpace(s) {
      forall k | 0 <= k < |r| ensures IsSpace(r[k]) {
        assert r[k] == t[k] == s[|s| - |t| + k];
      }
    }
  }

  /** ASCII upper case to lower case; every other character is kept. */
  function LowerChar(c: char): (r: char)
    ensures 'A' <= c <= 'Z' ==> 'a' <= r <= 'z' && r as int == c as int + 32
    ensures !('A' <= c <= 'Z') ==> r == c
  {
    if 'A' <= c <= 'Z' then (c as int + 32) as char else c
  }

  /** ASCII lower case to upper case; every other character is kept. */
  function UpperChar(c: char): (r: char)
    ensures 'a' <= c <= 'z' ==> 'A' <= r <= 'Z' && r as int == c as int - 32
    ensures !('a' <= c <= 'z') ==> r == c
  {
    if 'a' <= c <= 'z' then (c as int - 32) as char else c
  }

  /** Python's `s.lower()`, character by character. */
  function Lower(s: string): (r: string)
    ensures |r| == |s|
    ensures forall k :: 0 <= k < |s| ==> r[k] == LowerChar(s[k])
  {
    seq(|s|, k requires 0 <= k < |s| => LowerChar(s[k]))
  }

  /** Python's `s.capitalize()`: first character upper case, the rest lower case. */
  function Capitalize(s: string): (r: string)
    ensures |r| == |s|
    ensures |s| > 0 ==> r[0] == UpperChar(s[0]) && r[1..] == Lower(s[1..])
  {
    if |s| == 0 then "" else [UpperChar(s[0])] + Lower(s[1..])
  }

  /** `sub` occurs in `s` at position `i`. */
  predicate OccursAt(s: string, sub: string, i: nat) {
    i + |sub| <= |s| && s[i..i + |sub|] == sub
  }

  /** Python's `sub in s`. */
  function Contains(s: string, sub: string): (r: bool)
    ensures r <==> exists i: nat :: OccursAt(s, sub, i)
  {
    if |sub| <= |s| && s[..|sub|] == sub then
      assert OccursAt(s, sub, 0);
      true
    else if |s| == 0 then
      assert forall i: nat :: !OccursAt(s, sub, i);
      false
    else
      var rest := Contains(s[1..], sub);
      assert forall i: nat :: OccursAt(s[1..], sub, i) <==> OccursAt(s, sub, i + 1) by {
        forall i: nat ensures OccursAt(s[1..], sub, i) <==> OccursAt(s, sub, i + 1) {
          if i + |sub| <= |s[1..]| {
            assert s[1..][i..i + |sub|] == s[i + 1..i + 1 + |sub|];
          }
        }
      }
      assert !OccursAt(s, sub, 0);
      assert (exists i: nat :: OccursAt(s, sub, i)) ==> exists i: nat :: OccursAt(s[1..], sub, i) by {
        if exists i: nat :: OccursAt(s, sub, i) {
          var i: nat :| OccursAt(s, sub, i);
          assert i > 0;
          assert OccursAt(s[1..], sub, i - 1);
        }
      }
      rest
  }

  predicate IsDigit(c: char) {
    '0' <= c <= '9'
  }

  function DigitValue(c: char): (d: nat)
    requires IsDigit(c)
    ensures d < 10
  {
    c as int - '0' as int
  }

  function DigitChar(d: nat): (c: char)
    requires d < 10
    ensures IsDigit(c) && DigitValue(c) == d
  {
    ('0' as int + d) as char
  }

  /** Characters allowed in the digit part of a decimal literal. */
  predicate DigitsOrUnderscores(s: string) {
    forall k :: 0 <= k < |s| ==> IsDigit(s[k]) || s[k] == '_'
  }

  /** The digit part `int()` accepts in base 10: at least one digit, and
      underscores only singly and between two digits. */
  predicate IsDigitGroup(s: string) {
    && |s| > 0
    && DigitsOrUnderscores(s)
    && IsDigit(s[0])
    && IsDigit(s[|s| - 1])
    && forall k :: 0 <= k < |s| - 1 ==> !(s[k] == '_' && s[k + 1] == '_')
  }

  /** The number the digits of `s` spell, underscores ignored. */
  function DigitsValue(s: string): nat
    requires DigitsOrUnderscores(s)
  {
    if |s| == 0 then 0
    else if s[|s| - 1] == '_' then DigitsValue(s[..|s| - 1])
    else DigitsValue(s[..|s| - 1]) * 10 + DigitValue(s[|s| - 1])
  }

  /** The most digits `int()` converts from text, and `str()` writes, before
      it raises `ValueError`: CPython's default limit on integer/string
      conversion (`sys.int_info.default_max_str_digits`). */
  const IntMaxStrDigits: nat := 4300

  /** The number of decimal digits in `s`; signs and underscores do not count. */
  function DigitCount(s: string): (n: nat)
    ensures n <= |s|
  {
    if |s| == 0 then 0
    else DigitCount(s[..|s| - 1]) + (if IsDigit(s[|s| - 1]) then 1 else 0)
  }

  /** Text made only of digits has as many digits as characters. */
  lemma {:induction false} AllDigitsCount(s: string)
    requires forall k :: 0 <= k < |s| ==> IsDigit(s[k])
    ensures DigitCount(s) == |s|
  {
    if |s| > 0 {
      AllDigitsCount(s[..|s| - 1]);
    }
  }

  /** `str(n)` writes at most `IntMaxStrDigits` digits, so it does not raise. */
  predicate WithinStrDigits(n: int) {
    |FormatNat(if n < 0 then -n else n)| <= IntMaxStrDigits
  }

  /** The number syntax of `int()` once the whitespace is gone: one
      optional sign, then a digit group of at most `IntMaxStrDigits` digits. */
  function ParseSigned(t: string): (r: Option<int>)
    ensures r.Some? ==> |t| > 0 && (t[0] == '+' || t[0] == '-' || IsDigit(t[0]))
  {
    if |t| > 0 && (t[0] == '+' || t[0] == '-') then
      var body := t[1..];
      if IsDigitGroup(body) && DigitCount(body) <= IntMaxStrDigits then
        var v: int := DigitsValue(body);
        Some(if t[0] == '-' then -v else v)
      else None
    else if IsDigitGroup(t) && DigitCount(t) <= IntMaxStrDigits then Some(DigitsValue(t))
    else None
  }

  /** Python's `int(s)` on a string: the characters of `IsIntSpace` around it
      are ignored, then one optional sign and a digit group. `None` stands for
      the `ValueError` it raises on anything else (the empty string included). */
  function ParsePyInt(s: string): (r: Option<int>)
    ensures r.Some? ==> |IntStrip(s)| > 0 && |Strip(s)| > 0
    ensures AllSpace(s) ==> r.None?
  {
    IntStripOfSpace(s);
    ParseSigned(IntStrip(s))
  }

  /** A first character `int()` does not skip is the first one it reads. */
  lemma IntStripKeepsLeading(s: string)
    requires |s| > 0 && !IsIntSpace(s[0])
    ensures |IntStrip(s)| > 0 && IntStrip(s)[0] == s[0]
  {
    assert TrimStart(s, IntBlanks) == s;
    var t := TrimEnd(s, IntBlanks);
    assert IntStrip(s) == t;
    assert !IsBlank(IntBlanks, s[0]);
    assert t[0] == s[0];
  }

  /** `strip()` drops a leading whitespace character. */
  lemma StripDropsLeadingSpace(s: string)
    requires |s| > 0 && IsSpace(s[0])
    ensures Strip(s) == Strip(s[1..])
  {
    assert TrimStart(s, StripBlanks) == TrimStart(s[1..], StripBlanks);
    assert Strip(s) == TrimEnd(TrimStart(s, StripBlanks), StripBlanks);
    assert Strip(s[1..]) == TrimEnd(TrimStart(s[1..], StripBlanks), StripBlanks);
  }

  /** A separator \x1c..\x1f in front of the number is whitespace to `strip()`,
      which drops it, but not to `int()`, which then rejects the text. */
  lemma ParseRejectsLeadingSeparator(s: string)
    requires |s| > 0 && IsSpace(s[0]) && !IsIntSpace(s[0])
    ensures ParsePyInt(s) == None
    ensures Strip(s) == Strip(s[1..])
  {
    StripDropsLeadingSpace(s);
    IntStripKeepsLeading(s);
    assert ParsePyInt(s) == ParseSigned(IntStrip(s));
  }

  /** `int("\x1c12")` raises, where `int("12")` is 12. */
  lemma SeparatorBeforeNumber()
    ensures ParsePyInt("\U{1C}12") == None
  {
    var s := "\U{1C}12";
    var c := s[0];
    assert c == '\U{1C}';
    assert IsSpace(c) && !IsIntSpace(c);
    ParseRejectsLeadingSeparator(s);
  }

  /** Python's `str(n)` for a natural number: its decimal digits, no leading zero. */
  function FormatNat(n: nat): (r: string)
    ensures |r| > 0
    ensures forall k :: 0 <= k < |r| ==> IsDigit(r[k])
    ensures n > 0 ==> r[0] != '0'
  {
    if n < 10 then [DigitChar(n)] else FormatNat(n / 10) + [DigitChar(n % 10)]
  }

  /** Python's `str(n)` for an integer. */
  function FormatInt(n: int): (r: string)
    ensures |r| > 0
    ensures n < 0 ==> r[0] == '-' && r[1..] == FormatNat(-n)
    ensures n >= 0 ==> r == FormatNat(n)
  {
    if n < 0 then "-" + FormatNat(-n) else FormatNat(n)
  }

  /** Reading back the digits `FormatNat` wrote gives the number again. */
  lemma {:induction false} DigitsValueOfFormatNat(n: nat)
    ensures DigitsValue(FormatNat(n)) == n
  {
    var s := FormatNat(n);
    if n >= 10 {
      assert s[..|s| - 1] == FormatNat(n / 10);
      DigitsValueOfFormatNat(n / 10);
    }
  }

  /** The decimal digits of a natural number form a digit group `int()` accepts. */
  lemma FormatNatIsDigitGroup(n: nat)
    ensures IsDigitGroup(FormatNat(n))
  {
    var r := FormatNat(n);
    assert DigitsOrUnderscores(r);
  }

  /** `int()` of a digit group within the digit limit is the number its
      digits spell. */
  lemma ParseDigitGroup(g: string)
    requires IsDigitGroup(g) && DigitCount(g) <= IntMaxStrDigits
    ensures ParsePyInt(g) == Some(DigitsValue(g) as int)
  {
    IntStripUnpadded(g);
    assert g[0] != '+' && g[0] != '-';
    assert ParseSigned(g) == Some(DigitsValue(g) as int);
  }

  /** `int()` of a minus sign followed by a digit group within the digit
      limit is that number negated. */
  lemma ParseNegatedDigitGroup(g: string)
    requires IsDigitGroup(g) && DigitCount(g) <= IntMaxStrDigits
    ensures ParsePyInt("-" + g) == Some(-(DigitsValue(g) as int))
  {
    var s := "-" + g;
    assert s[|s| - 1] == g[|g| - 1];
    IntStripUnpadded(s);
    assert s[0] == '-' && s[1..] == g;
    assert ParseSigned(s) == Some(-(DigitsValue(g) as int));
  }

  /** A digit group over the digit limit is rejected, whatever it spells. */
  lemma LongDigitGroupRejected(g: string)
    requires IsDigitGroup(g) && DigitCount(g) > IntMaxStrDigits
    ensures ParsePyInt(g) == None
  {
    IntStripUnpadded(g);
    assert g[0] != '+' && g[0] != '-';
    assert ParseSigned(g) == None;
  }

  /** `int(str(n)) == n`: the parser reads back every integer the formatter
      writes within the digit limit. */
  lemma ParseFormatRoundTrip(n: int)
    requires WithinStrDigits(n)
    ensures ParsePyInt(FormatInt(n)) == Some(n)
  {
    var m: nat := if n < 0 then -n else n;
    AllDigitsCount(FormatNat(m));
    FormatNatIsDigitGroup(m);
    DigitsValueOfFormatNat(m);
    if n < 0 {
      ParseNegatedDigitGroup(FormatNat(m));
    } else {
      ParseDigitGroup(FormatNat(m));
    }
  }
}

=== FILE: worker.dfy ===
/** The background worker and everything that feeds it: the FIFO of queued
    actions, the handlers that make one call attempt each, the retry
    decision, cancel-all, and the two enqueue sites. Network results,
    clocks and the user's clicks are inputs; threads become a sequence of
    events applied one at a time. */
module Worker {
  import opened Wrappers
  import Config
  import Text
  import Actions
  import CallLog
  import Stats
  import Delay
  import Countdown
  import Inputs

  /** The user options the worker and the enqueue sites read. */
  datatype Options = Options(
    verifiedOnly: bool,
    noReplies: bool,
    debugMode: bool,
    intervals: Delay.RetryIntervals,
    maxSearchResults: int)

  /** The option defaults used when no options file overrides them. */
  function DefaultOptions(): Options {
    Options(false, false, false, Delay.DefaultIntervals(), 50)
  }

  /** The application state the queue logic touches: the queue, the
      cancel-all stop flag, the `running` flag cleared on window close, the
      retry-cancel flag, the call log and the options.

      `retryCancelled` is `retry_cancelled`. The button press that raises it
      during a countdown (main.py:726) is carried by `Countdown.Run`'s
      outcome instead; the flag records only the resets the retry handler
      performs (main.py:686 when a countdown starts, main.py:654 after a
      cancel), so in every state the model reaches it is false. */
  datatype App = App(
    queue: seq<Actions.Action>,
    stopRequested: bool,
    running: bool,
    retryCancelled: bool,
    log: CallLog.CallLog,
    options: Options)

  /** The state right after start-up: empty queue, no flag raised, the log
      loaded from storage (empty when there is no log file). */
  function Launch(storedLog: Option<seq<CallLog.LogEntry>>, options: Options): (app: App)
    ensures app.queue == [] && Actions.QueueOk(app.queue)
    ensures !app.stopRequested && app.running && !app.retryCancelled
    ensures storedLog.None? ==> app.log.entries == []
    ensures storedLog.Some? ==> app.log.entries == storedLog.value
    ensures app.options == options
  {
    App([], false, true, false, CallLog.LoadLogs(storedLog), options)
  }

  /** What the search request yields: it raised (timeout, connection error,
      no response), or a response came back whose body may or may not be JSON. */
  datatype SearchOutcome =
    | SearchRaised
    | SearchResponded(response: Delay.HttpResponse, bodyIsJson: bool)

  /** What a reply or like call yields: it raised (an HTTP error carries its
      response), or it returned a value. */
  datatype WriteOutcome =
    | WriteRaised(errorResponse: Option<Delay.HttpResponse>)
    | WriteReturned(value: CallLog.CallValue)

  /** Everything outside the model that one worker iteration observes: the
      call's result for each kind, whether a client is (or can again be)
      created, the clock, measured durations, log timestamps, and the tick
      of the retry countdown, if any, during which the user cancels it. */
  datatype Attempt = Attempt(
    search: SearchOutcome,
    write: WriteOutcome,
    clientReady: bool,
    now: int,
    callDuration: real,
    attemptDuration: real,
    callStamp: string,
    retryStamp: string,
    cancelAt: Option<nat>)

  /** The `str()` of a response object of the HTTP library. */
  function ResponseText(status: int): string {
    "<Response [" + Text.FormatInt(status) + "]>"
  }

  /** `log_call` on the application's log. */
  function Logged(app: App, kind: Actions.Kind, duration: real, value: CallLog.CallValue, stamp: string): (r: App)
    ensures r == app.(log := r.log)
    ensures |r.log.entries| == |app.log.entries| + 1
    ensures r.log.entries[..|app.log.entries|] == app.log.entries
    ensures CallLog.Last(r.log).apiRef == Actions.ApiRef(kind)
    ensures CallLog.IsFailed(CallLog.Last(r.log)) <==> value.Falsy? || value.text == CallLog.FailedMarker
  {
    app.(log := CallLog.LogCall(app.log, Actions.ApiRef(kind), duration, value, stamp))
  }

  /** The countdown was cancelled before it ran out. */
  predicate CancelledInTime(cancelAt: Option<nat>, delay: int) {
    cancelAt.Some? && cancelAt.value < delay
  }

  /** `handle_retry`: records the failed attempt, then abandons the action at
      MaxRetries; otherwise waits out the retry delay on the countdown, drops
      the action if the user cancelled the countdown, and else appends it at
      the tail with its counter raised by exactly one. Returns whether the
      action was re-queued. */
  function HandleRetry(app: App, kind: Actions.Kind, a: Actions.Action, response: Option<Delay.HttpResponse>, env: Attempt): (r: (App, bool))
    ensures r.0.stopRequested == app.stopRequested && r.0.running == app.running && r.0.options == app.options
    ensures |r.0.log.entries| == |app.log.entries| + 1
    ensures r.0.log.entries[..|app.log.entries|] == app.log.entries
    ensures CallLog.Last(r.0.log).apiRef == Actions.ApiRef(kind) && CallLog.IsFailed(CallLog.Last(r.0.log))
    ensures var delay := Delay.RetryDelay(response, Actions.KindTag(kind), app.options.intervals, env.now, a.retries);
            r.1 <==> a.retries < Config.MaxRetries && !CancelledInTime(env.cancelAt, delay)
    ensures r.1 ==> r.0.queue == app.queue + [Actions.Retried(a)]
    ensures !r.1 ==> r.0.queue == app.queue
    ensures a.retries < Config.MaxRetries ==> !r.0.retryCancelled
    ensures a.retries >= Config.MaxRetries ==> r.0.retryCancelled == app.retryCancelled
  {
    var logged := Logged(app, kind, env.attemptDuration, CallLog.Falsy, env.retryStamp);
    if a.retries >= Config.MaxRetries then (logged, false)
    else
      var delay := Delay.RetryDelay(response, Actions.KindTag(kind), app.options.intervals, env.now, a.retries);
      var countdown := Countdown.Run(Countdown.Start(delay), env.cancelAt);
      if countdown.cancelled then (logged.(retryCancelled := false), false)
      else (logged.(queue := logged.queue + [Actions.Retried(a)], retryCancelled := false), true)
  }

  /** How one handler call may change the application: the log keeps its old
      entries and gains at most two, all under the handler's reference; the
      queue is unchanged or gains the action back at its tail with one more
      retry (only below MaxRetries); flags and options are untouched. */
  predicate HandledOnce(app: App, app': App, kind: Actions.Kind, a: Actions.Action) {
    && app'.stopRequested == app.stopRequested
    && app'.running == app.running
    && app'.options == app.options
    && |app.log.entries| <= |app'.log.entries| <= |app.log.entries| + 2
    && app'.log.entries[..|app.log.entries|] == app.log.entries
    && (forall i :: |app.log.entries| <= i < |app'.log.entries| ==> app'.log.entries[i].apiRef == Actions.ApiRef(kind))
    && (|| app'.queue == app.queue
        || (a.retries < Config.MaxRetries && app'.queue == app.queue + [Actions.Retried(a)]))
  }

  /** Two single-entry extensions of a log, both under `ref`, make one
      two-entry extension whose first new entry is the first one appended. */
  lemma TwoEntriesAppended(e0: seq<CallLog.LogEntry>, e1: seq<CallLog.LogEntry>, e2: seq<CallLog.LogEntry>, ref: string)
    requires |e1| == |e0| + 1 && e1[..|e0|] == e0 && e1[|e0|].apiRef == ref
    requires |e2| == |e1| + 1 && e2[..|e1|] == e1 && e2[|e1|].apiRef == ref
    ensures e2[..|e0|] == e0 && e2[|e0|] == e1[|e0|]
    ensures forall i :: |e0| <= i < |e2| ==> e2[i].apiRef == ref
  {
    assert e2[..|e0|] == e1[..|e0|];
  }

  /** A failed call as both handlers treat it: `log_call` records the call's
      value, then the retry decision logs its own failure and may re-queue
      the action. */
  function LoggedThenRetried(app: App, kind: Actions.Kind, a: Actions.Action, value: CallLog.CallValue,
                             response: Option<Delay.HttpResponse>, env: Attempt): (r: App)
    ensures HandledOnce(app, r, kind, a)
    ensures |r.log.entries| == |app.log.entries| + 2
    ensures CallLog.IsFailed(r.log.entries[|app.log.entries|]) <==> value.Falsy? || value.text == CallLog.FailedMarker
    ensures CallLog.IsFailed(CallLog.Last(r.log))
    ensures var delay := Delay.RetryDelay(response, Actions.KindTag(kind), app.options.intervals, env.now, a.retries);
            r.queue != app.queue <==> a.retries < Config.MaxRetries && !CancelledInTime(env.cancelAt, delay)
  {
    var n := |app.log.entries|;
    var app1 := Logged(app, kind, env.callDuration, value, env.callStamp);
    var retry := HandleRetry(app1, kind, a, response, env);
    var r := retry.0;
    assert app1.queue == app.queue && app1.options == app.options;
    TwoEntriesAppended(app.log.entries, app1.log.entries, r.log.entries, Actions.ApiRef(kind));
    r
  }

  /** A search attempt that ends in success: a non-error response with a JSON body. */
  predicate SearchSucceeded(o: SearchOutcome) {
    o.SearchResponded? && !Delay.IsHttpError(o.response.status) && o.bodyIsJson
  }

  /** The response a failed search hands to the retry decision: only an
      HTTP error status carries one. */
  function SearchFailureResponse(o: SearchOutcome): (r: Option<Delay.HttpResponse>)
    ensures r.Some? <==> o.SearchResponded? && Delay.IsHttpError(o.response.status)
    ensures r.Some? ==> r.value == o.response
  {
    if o.SearchResponded? && Delay.IsHttpError(o.response.status) then Some(o.response) else None
  }

  /** `perform_search` after the request is built: the call is logged, and a
      raised call, an HTTP error status or a non-JSON body goes to the retry
      decision (with the response only for the HTTP error). A success logs
      one entry; a failure logs two, both recorded as failed unless the
      response was not itself an error. */
  function PerformSearch(app: App, a: Actions.Action, env: Attempt): (r: App)
    ensures HandledOnce(app, r, Actions.Search, a)
    ensures SearchSucceeded(env.search) ==>
              r.queue == app.queue && |r.log.entries| == |app.log.entries| + 1
              && !CallLog.IsFailed(CallLog.Last(r.log))
    ensures !SearchSucceeded(env.search) ==>
              |r.log.entries| == |app.log.entries| + 2 && CallLog.IsFailed(CallLog.Last(r.log))
    ensures (env.search.SearchRaised? || Delay.IsHttpError(env.search.response.status)) ==>
              CallLog.IsFailed(r.log.entries[|app.log.entries|])
    ensures !SearchSucceeded(env.search) ==>
              var delay := Delay.RetryDelay(SearchFailureResponse(env.search), Actions.KindTag(Actions.Search),
                                            app.options.intervals, env.now, a.retries);
              (r.queue != app.queue <==> a.retries < Config.MaxRetries && !CancelledInTime(env.cancelAt, delay))
  {
    match env.search
    case SearchRaised =>
      LoggedThenRetried(app, Actions.Search, a, CallLog.Falsy, None, env)
    case SearchResponded(resp, bodyIsJson) =>
      var value := if Delay.Truthy(resp) then CallLog.Truthy(ResponseText(resp.status)) else CallLog.Falsy;
      if Delay.IsHttpError(resp.status) then LoggedThenRetried(app, Actions.Search, a, value, Some(resp), env)
      else if !bodyIsJson then LoggedThenRetried(app, Actions.Search, a, value, None, env)
      else
        var r := Logged(app, Actions.Search, env.callDuration, value, env.callStamp);
        assert r.log.entries[|app.log.entries|] == CallLog.Last(r.log);
        r
  }

  /** `perform_reply` and `perform_like`: without a client (and none can be
      created) the action is dropped silently; otherwise the call is logged,
      and a raised call logs a second failure and goes to the retry decision
      with the error's response. */
  function PerformWrite(app: App, kind: Actions.Kind, a: Actions.Action, env: Attempt): (r: App)
    requires kind != Actions.Search
    ensures HandledOnce(app, r, kind, a)
    ensures !env.clientReady ==> r == app
    ensures env.clientReady && env.write.WriteReturned? ==>
              r.queue == app.queue && |r.log.entries| == |app.log.entries| + 1
    ensures env.clientReady && env.write.WriteRaised? ==>
              && |r.log.entries| == |app.log.entries| + 2
              && CallLog.IsFailed(r.log.entries[|app.log.entries|])
              && CallLog.IsFailed(CallLog.Last(r.log))
    ensures env.clientReady && env.write.WriteRaised? ==>
              var delay := Delay.RetryDelay(env.write.errorResponse, Actions.KindTag(kind),
                                            app.options.intervals, env.now, a.retries);
              (r.queue != app.queue <==> a.retries < Config.MaxRetries && !CancelledInTime(env.cancelAt, delay))
  {
    if !env.clientReady then app
    else
      match env.write
      case WriteRaised(errorResponse) =>
        LoggedThenRetried(app, kind, a, CallLog.Falsy, errorResponse, env)
      case WriteReturned(value) =>
        var r := Logged(app, kind, env.callDuration, value, env.callStamp);
        assert r.log.entries[|app.log.entries|] == CallLog.Last(r.log);
        r
  }

  /** The handler chosen by the action's tag; an unknown tag is dropped. */
  function Dispatch(app: App, a: Actions.Action, env: Attempt): (r: App)
    requires Actions.WellTagged(a)
    ensures Actions.ParseKind(a.tag).None? ==> r == app
    ensures Actions.ParseKind(a.tag).Some? ==> HandledOnce(app, r, Actions.ParseKind(a.tag).value, a)
  {
    match Actions.ParseKind(a.tag)
    case None => app
    case Some(kind) =>
      if kind == Actions.Search then PerformSearch(app, a, env) else PerformWrite(app, kind, a, env)
  }

  datatype LoopControl = Continue | Exit

  /** One iteration of `process_action_queue`: leave the loop once the window
      was closed or cancel-all was requested; idle on an empty queue;
      otherwise take the head of the queue and run at most one handler. */
  function WorkerStep(app: App, env: Attempt): (r: (App, LoopControl))
    requires |app.queue| > 0 ==> Actions.WellTagged(app.queue[0])
    ensures !app.running || app.stopRequested ==> r == (app, Exit)
    ensures app.running && !app.stopRequested && |app.queue| == 0 ==> r == (app, Continue)
    ensures app.running && !app.stopRequested && |app.queue| > 0 ==>
              var head := app.queue[0];
              var rest := app.(queue := app.queue[1..]);
              && r.1 == Continue
              && (Actions.ParseKind(head.tag).None? ==> r.0 == rest)
              && (Actions.ParseKind(head.tag).Some? ==> HandledOnce(rest, r.0, Actions.ParseKind(head.tag).value, head))
  {
    if !app.running || app.stopRequested then (app, Exit)
    else if |app.queue| == 0 then (app, Continue)
    else (Dispatch(app.(queue := app.queue[1..]), app.queue[0], env), Continue)
  }

  /** A worker iteration keeps every queued action well tagged with its
      counter in 0..MaxRetries. */
  lemma WorkerStepKeepsQueueOk(app: App, env: Attempt)
    requires Actions.QueueOk(app.queue)
    ensures Actions.QueueOk(WorkerStep(app, env).0.queue)
  {
    if app.running && !app.stopRequested && |app.queue| > 0 {
      var head := app.queue[0];
      var rest := app.queue[1..];
      var r := WorkerStep(app, env).0;
      assert Actions.Pending(head);
      assert Actions.QueueOk(rest);
      match Actions.ParseKind(head.tag)
      case None =>
      case Some(k) =>
        assert HandledOnce(app.(queue := rest), r, k, head);
        if r.queue != rest {
          var retried := Actions.Retried(head);
          Actions.QueueOkAppend(rest, [retried]);
        }
    }
  }

  /** `cancel_actions`: raise the stop flag and empty the queue. */
  function CancelActions(app: App): (r: App)
    ensures r.stopRequested && r.queue == []
    ensures r.log == app.log && r.running == app.running && r.options == app.options
    ensures r.retryCancelled == app.retryCancelled
  {
    app.(stopRequested := true, queue := [])
  }

  /** `on_closing`: the worker loop's `running` condition becomes false. */
  function OnClosing(app: App): (r: App)
    ensures !r.running
    ensures r.queue == app.queue && r.log == app.log && r.stopRequested == app.stopRequested
    ensures r.options == app.options && r.retryCancelled == app.retryCancelled
  {
    app.(running := false)
  }

  /** `queue_search`: validate the entries, then append one fresh search
      carrying the validated window and the current filter options. On an
      input error nothing is queued. */
  function QueueSearch(app: App, startEntry: Inputs.DateTime, endEntry: Inputs.DateTime, keywordEntry: string, now: int): (r: Result<App, Inputs.InputError>)
    ensures r.Err? <==> Inputs.ValidateInputs(startEntry, endEntry, keywordEntry, now).Err?
    ensures r.Err? ==> r.error == Inputs.ValidateInputs(startEntry, endEntry, keywordEntry, now).error
    ensures r.Ok? ==> |r.value.queue| == |app.queue| + 1
    ensures r.Ok? && Actions.QueueOk(app.queue) ==> Actions.QueueOk(r.value.queue)
    ensures r.Ok? ==>
              var added := r.value.queue[|app.queue|];
              && r.value == app.(queue := r.value.queue)
              && r.value.queue[..|app.queue|] == app.queue
              && Actions.Pending(added) && added.retries == 0
              && Actions.ParseKind(added.tag) == Some(Actions.Search)
              && added.payload.SearchPayload?
              && added.payload.search.keywords == Text.Strip(keywordEntry)
              && |added.payload.search.keywords| > 0
              && added.payload.search.startTime < added.payload.search.endTime
              && added.payload.search.startTime == Inputs.ValidateInputs(startEntry, endEntry, keywordEntry, now).value.startTime
              && added.payload.search.endTime == Inputs.ValidateInputs(startEntry, endEntry, keywordEntry, now).value.endTime
              && added.payload.search.verifiedOnly == app.options.verifiedOnly
              && added.payload.search.noReplies == app.options.noReplies
  {
    match Inputs.ValidateInputs(startEntry, endEntry, keywordEntry, now)
    case Err(e) => Err(e)
    case Ok(v) =>
      var p := Actions.SearchParams(v.keywords, v.startTime, v.endTime, app.options.verifiedOnly, app.options.noReplies);
      assert Inputs.ValidateInputsAsWritten(startEntry, endEntry, keywordEntry, now) == Ok(v);
      var added := [Actions.Fresh(Actions.SearchPayload(p))];
      assert Actions.QueueOk(app.queue) ==> Actions.QueueOk(app.queue + added) by {
        if Actions.QueueOk(app.queue) { Actions.QueueOkAppend(app.queue, added); }
      }
      var queue := app.queue + added;
      assert queue[|app.queue|] == added[0] && queue[..|app.queue|] == app.queue;
      Ok(app.(queue := queue))
  }

  datatype QueueError = NoPostsSelected | NoActionsSelected | BadReply(reason: Inputs.ReplyError)

  /** One fresh reply per selected post, in selection order. */
  function ReplyActions(posts: seq<string>, text: string): (q: seq<Actions.Action>)
    ensures |q| == |posts| && Actions.QueueOk(q)
    ensures forall i :: 0 <= i < |posts| ==>
              q[i] == Actions.Action("reply", Actions.ReplyPayload(posts[i], text), 0)
  {
    seq(|posts|, i requires 0 <= i < |posts| => Actions.Fresh(Actions.ReplyPayload(posts[i], text)))
  }

  /** One fresh like per selected post, in selection order. */
  function LikeActions(posts: seq<string>): (q: seq<Actions.Action>)
    ensures |q| == |posts| && Actions.QueueOk(q)
    ensures forall i :: 0 <= i < |posts| ==>
              q[i] == Actions.Action("like", Actions.LikePayload(posts[i]), 0)
  {
    seq(|posts|, i requires 0 <= i < |posts| => Actions.Fresh(Actions.LikePayload(posts[i])))
  }

  /** Both kinds chosen: the replies, then the likes. */
  function RepliesThenLikes(posts: seq<string>, text: string): (added: seq<Actions.Action>)
    ensures |added| == 2 * |posts| && Actions.QueueOk(added)
    ensures forall i :: 0 <= i < |posts| ==>
              added[i] == Actions.Action("reply", Actions.ReplyPayload(posts[i], text), 0)
    ensures forall i :: 0 <= i < |posts| ==>
              added[|posts| + i] == Actions.Action("like", Actions.LikePayload(posts[i]), 0)
  {
    var replies := ReplyActions(posts, text);
    var likes := LikeActions(posts);
    Actions.QueueOkAppend(replies, likes);
    replies + likes
  }

  /** The actions one press of Execute adds: a reply per post (selection
      order) when replying, then a like per post (selection order) when
      liking, all fresh. */
  function PlannedActions(posts: seq<string>, reply: bool, like: bool, text: string): (added: seq<Actions.Action>)
    ensures |added| == (if reply then |posts| else 0) + (if like then |posts| else 0)
    ensures Actions.QueueOk(added)
    ensures reply ==> forall i :: 0 <= i < |posts| ==>
              added[i] == Actions.Action("reply", Actions.ReplyPayload(posts[i], text), 0)
    ensures like ==> forall i :: 0 <= i < |posts| ==>
              added[|added| - |posts| + i] == Actions.Action("like", Actions.LikePayload(posts[i]), 0)
  {
    if reply && like then RepliesThenLikes(posts, text)
    else if reply then ReplyActions(posts, text)
    else if like then LikeActions(posts)
    else []
  }

  /** `queue_actions`: with posts and at least one action chosen, and a valid
      reply text when replying, append the planned replies and likes;
      otherwise queue nothing. */
  function QueueActions(app: App, selected: seq<string>, reply: bool, like: bool, replyEntry: string): (r: Result<App, QueueError>)
    ensures r == Err(NoPostsSelected) <==> |selected| == 0
    ensures r == Err(NoActionsSelected) <==> |selected| > 0 && !reply && !like
    ensures r.Err? && r.error.BadReply? <==>
              |selected| > 0 && reply && Inputs.ValidateReplyText(replyEntry).Err?
    ensures r.Ok? ==> r.value == app.(queue := app.queue + PlannedActions(selected, reply, like, Text.Strip(replyEntry)))
    ensures r.Ok? && Actions.QueueOk(app.queue) ==> Actions.QueueOk(r.value.queue)
  {
    if |selected| == 0 then Err(NoPostsSelected)
    else if !reply && !like then Err(NoActionsSelected)
    else if reply && Inputs.ValidateReplyText(replyEntry).Err? then
      Err(BadReply(Inputs.ValidateReplyText(replyEntry).error))
    else
      var added := PlannedActions(selected, reply, like, Text.Strip(replyEntry));
      assert Actions.QueueOk(app.queue) ==> Actions.QueueOk(app.queue + added) by {
        if Actions.QueueOk(app.queue) { Actions.QueueOkAppend(app.queue, added); }
      }
      Ok(app.(queue := app.queue + added))
  }

  /** Something that happens to the application: a worker iteration, one of
      the user's buttons, or closing the window. */
  datatype Event =
    | WorkerTick(attempt: Attempt)
    | SearchClicked(startEntry: Inputs.DateTime, endEntry: Inputs.DateTime, keywordEntry: string, now: int)
    | ExecuteClicked(selected: seq<string>, reply: bool, like: bool, replyEntry: string)
    | CancelClicked
    | WindowClosed

  /** One event's effect; a rejected input leaves the application as it was. */
  function Apply(app: App, e: Event): (r: App)
    requires Actions.QueueOk(app.queue)
    ensures Actions.QueueOk(r.queue)
    ensures app.stopRequested ==> r.stopRequested
    ensures !app.running ==> !r.running
  {
    match e
    case WorkerTick(attempt) =>
      WorkerStepKeepsQueueOk(app, attempt);
      WorkerStep(app, attempt).0
    case SearchClicked(startEntry, endEntry, keywordEntry, now) =>
      (match QueueSearch(app, startEntry, endEntry, keywordEntry, now)
       case Err(_) => app
       case Ok(next) => next)
    case ExecuteClicked(selected, reply, like, replyEntry) =>
      (match QueueActions(app, selected, reply, like, replyEntry)
       case Err(_) => app
       case Ok(next) => next)
    case CancelClicked => CancelActions(app)
    case WindowClosed => OnClosing(app)
  }

  /** Events applied in order. */
  function Replay(app: App, events: seq<Event>): (r: App)
    requires Actions.QueueOk(app.queue)
    ensures Actions.QueueOk(r.queue)
    decreases |events|
  {
    if |events| == 0 then app else Replay(Apply(app, events[0]), events[1..])
  }

  /** Once the worker loop has exited, because cancel-all was requested or
      the window was closed, nothing lowers the stop flag or raises `running`
      again, so whatever the user does afterwards no call is made and
      nothing is logged: the log stays as it was. */
  lemma {:induction false} NoCallAfterExit(app: App, events: seq<Event>)
    requires Actions.QueueOk(app.queue) && (app.stopRequested || !app.running)
    ensures app.stopRequested ==> Replay(app, events).stopRequested
    ensures !app.running ==> !Replay(app, events).running
    ensures Replay(app, events).log == app.log
    decreases |events|
  {
    if |events| > 0 {
      var next := Apply(app, events[0]);
      assert next.log == app.log;
      NoCallAfterExit(next, events[1..]);
    }
  }

  /** The worker iterations for the given attempts. */
  function Ticks(attempts: seq<Attempt>): (events: seq<Event>)
    ensures |events| == |attempts|
    ensures forall i :: 0 <= i < |attempts| ==> events[i] == WorkerTick(attempts[i])
  {
    seq(|attempts|, i requires 0 <= i < |attempts| => WorkerTick(attempts[i]))
  }

  /** An attempt in which the call raises whatever its kind, a client is
      available, and the user never cancels the countdown. */
  predicate FailingAttempt(env: Attempt) {
    env.search.SearchRaised? && env.write.WriteRaised? && env.clientReady && env.cancelAt.None?
  }

  /** One failing iteration on a single-action queue: two failed entries
      are logged and the action comes back with one more retry unless it
      had none left. */
  lemma FailingStep(app: App, env: Attempt)
    requires app.running && !app.stopRequested
    requires |app.queue| == 1 && Actions.QueueOk(app.queue)
    requires Actions.ParseKind(app.queue[0].tag).Some?
    requires FailingAttempt(env)
    ensures var step := WorkerStep(app, env).0;
            && step.running && !step.stopRequested
            && FailuresAppended(app.log.entries, step.log.entries, 2)
            && step.queue == (if app.queue[0].retries < Config.MaxRetries
                              then [Actions.Retried(app.queue[0])] else [])
  {
    var head := app.queue[0];
    var kind := Actions.ParseKind(head.tag).value;
    var rest := app.(queue := app.queue[1..]);
    assert app.queue[1..] == [];
    var step := WorkerStep(app, env).0;
    assert HandledOnce(rest, step, kind, head);
    var n := |app.log.entries|;
    assert CallLog.Last(step.log) == step.log.entries[n + 1];
    if kind == Actions.Search {
      assert step == PerformSearch(rest, head, env);
    } else {
      assert step == PerformWrite(rest, kind, head, env);
    }
    forall i | n <= i < |step.log.entries|
      ensures CallLog.IsFailed(step.log.entries[i])
    {
      assert i == n || i == n + 1;
    }
  }

  /** Replaying worker iterations is one iteration followed by the rest. */
  lemma ReplayTicks(app: App, attempts: seq<Attempt>)
    requires Actions.QueueOk(app.queue) && |attempts| > 0
    ensures Actions.QueueOk(WorkerStep(app, attempts[0]).0.queue)
    ensures Replay(app, Ticks(attempts)) == Replay(WorkerStep(app, attempts[0]).0, Ticks(attempts[1..]))
  {
    WorkerStepKeepsQueueOk(app, attempts[0]);
    var events := Ticks(attempts);
    assert events[0] == WorkerTick(attempts[0]);
    assert events[1..] == Ticks(attempts[1..]);
  }

  /** `after` is `before` followed by `k` entries, all recorded as failed. */
  predicate FailuresAppended(before: seq<CallLog.LogEntry>, after: seq<CallLog.LogEntry>, k: nat) {
    && |after| == |before| + k
    && after[..|before|] == before
    && forall i :: |before| <= i < |after| ==> CallLog.IsFailed(after[i])
  }

  lemma FailuresAppendedChain(a: seq<CallLog.LogEntry>, b: seq<CallLog.LogEntry>, c: seq<CallLog.LogEntry>, k1: nat, k2: nat)
    requires FailuresAppended(a, b, k1) && FailuresAppended(b, c, k2)
    ensures FailuresAppended(a, c, k1 + k2)
  {
    assert c[..|a|] == c[..|b|][..|a|];
    forall i | |a| <= i < |c|
      ensures CallLog.IsFailed(c[i])
    {
      if i < |b| {
        assert c[i] == c[..|b|][i];
      }
    }
  }

  /** An action whose every attempt fails is tried once more for each retry
      it has left, then abandoned: after exactly `MaxRetries - retries + 1`
      iterations the queue is empty, and each attempt has added two log
      entries, both recorded as failed. */
  lemma {:induction false} FailingActionRunsOutOfRetries(app: App, attempts: seq<Attempt>)
    requires app.running && !app.stopRequested
    requires |app.queue| == 1 && Actions.QueueOk(app.queue)
    requires Actions.ParseKind(app.queue[0].tag).Some?
    requires |attempts| == Config.MaxRetries - app.queue[0].retries + 1
    requires forall i :: 0 <= i < |attempts| ==> FailingAttempt(attempts[i])
    ensures Replay(app, Ticks(attempts)).queue == []
    ensures FailuresAppended(app.log.entries, Replay(app, Ticks(attempts)).log.entries, 2 * |attempts|)
    decreases |attempts|
  {
    FailingStep(app, attempts[0]);
    ReplayTicks(app, attempts);
    var step := WorkerStep(app, attempts[0]).0;
    if app.queue[0].retries >= Config.MaxRetries {
      assert Ticks(attempts[1..]) == [];
    } else {
      var more := attempts[1..];
      assert forall i :: 0 <= i < |more| ==> FailingAttempt(more[i]) by {
        forall i | 0 <= i < |more| ensures FailingAttempt(more[i]) {
          assert more[i] == attempts[i + 1];
        }
      }
      FailingActionRunsOutOfRetries(step, more);
      FailuresAppendedChain(app.log.entries, step.log.entries, Replay(step, Ticks(more)).log.entries, 2, 2 * |more|);
    }
  }

  /** A freshly queued action that keeps failing is attempted MaxRetries + 1
      times (seven), leaving fourteen failed log entries. */
  lemma FreshFailingActionIsAttemptedSevenTimes(app: App, attempts: seq<Attempt>)
    requires app.running && !app.stopRequested
    requires |app.queue| == 1 && app.queue[0].retries == 0 && Actions.QueueOk(app.queue)
    requires Actions.ParseKind(app.queue[0].tag).Some?
    requires |attempts| == 7
    requires forall i :: 0 <= i < |attempts| ==> FailingAttempt(attempts[i])
    ensures Replay(app, Ticks(attempts)).queue == []
    ensures |Replay(app, Ticks(attempts)).log.entries| == |app.log.entries| + 14
  {
    FailingActionRunsOutOfRetries(app, attempts);
  }

  /** The statistics dictionary and the handlers agree on each kind's reference. */
  lemma StatsReferencesMatchHandlers(k: Actions.Kind)
    ensures Stats.ApiRefFor(Actions.KindTag(k)) == Some(Actions.ApiRef(k))
  {
  }

  /** A failing attempt leaves every average duration as it was: the entries
      it adds are all recorded as failed. The one exception is an unknown
      call type on an empty log, whose 0.0 becomes a `KeyError` once the
      attempt has logged an entry. */
  lemma FailingAttemptKeepsAverages(app: App, env: Attempt, level: string, callType: string)
    requires Actions.QueueOk(app.queue) && FailingAttempt(env)
    ensures callType in Config.KindNames || |app.log.entries| > 0 ==>
              Stats.AvgDuration(Stats.Stats(WorkerStep(app, env).0.log, level), callType)
              == Stats.AvgDuration(Stats.Stats(app.log, level), callType)
  {
    var after := WorkerStep(app, env).0;
    var n := |app.log.entries|;
    if app.running && !app.stopRequested && |app.queue| > 0 && Actions.ParseKind(app.queue[0].tag).Some?
       && callType in Config.KindNames
    {
      var head := app.queue[0];
      var kind := Actions.ParseKind(head.tag).value;
      var rest := app.(queue := app.queue[1..]);
      assert after == (if kind == Actions.Search then PerformSearch(rest, head, env) else PerformWrite(rest, kind, head, env));
      var ref := Stats.ApiRefFor(callType).value;
      var e0 := after.log.entries[n];
      var e1 := after.log.entries[n + 1];
      assert after.log.entries == app.log.entries + [e0] + [e1] by {
        assert after.log.entries[..n] == app.log.entries;
        assert |after.log.entries| == n + 2;
      }
      assert CallLog.IsFailed(e0) && CallLog.IsFailed(e1);
      Stats.AppendUncountedKeepsDurations(app.log.entries, e0, ref);
      Stats.AppendUncountedKeepsDurations(app.log.entries + [e0], e1, ref);
    }
  }
}

=== FILE: wrappers.dfy ===
/** The two failure-carrying shapes the rest of the model returns: an optional
    value, and a value-or-error in place of a raised exception. */
module Wrappers {

  /** Python's `None` or a present value. */
  datatype Option<T> = None | Some(value: T)

  /** A successful value, or the error the code would raise or report. */
  datatype Result<T, E> = Ok(value: T) | Err(error: E)
}
